=== FILE: README.md ===
# RT2880 SPI controller and ILI9488 display driver, modelled in Dafny

This project models two Linux 5.4 drivers that work together on a Ralink/MediaTek
board driving an ILI9488 panel.

- **spi-rt2880** is the SPI master driver of the RT2880 family. The model covers:
  - the clock prescaler computed from the reference clock and the requested speed
    (`rt2880_spi_baudrate_get`);
  - the chip-select control (`rt2880_spi_set_cs` and the `spi_set_cs` copy);
  - device setup (speed and word-size checks, the mode-0 to mode-3 upgrade, the
    chip-select polarity bits of the shared arbiter register);
  - per-message configuration of the CFG register (`rt2880_spi_prepare_message`);
  - the bounded busy-poll of STAT (`rt2880_spi_wait_ready`);
  - the byte-at-a-time half-duplex transfer (`rt2880_spi_transfer_one`).
- **fb_ili9488** is the fbtft panel driver. The model covers:
  - the address window commands (`set_addr_win`);
  - the MADCTL byte chosen from the rotation (`set_var`);
  - the 24-bit framebuffer writer (`fbtft_write_vmem24_bus8`), which stages whole
    pixels in a transmit buffer behind an optional start byte and sends them chunk by
    chunk.

Every operation is a pure function or a method over immutable values. The register
window is a value (`Rt2880Regs.Io`) holding the CFG, CTL and arbiter registers (each
reads back the last value this controller wrote to it; the shared arbiter register is
held per controller, see Left out) and the trace of every register write, in
order. Values the hardware or a lower layer supplies come in as oracle functions:

- STAT reads, indexed by wait number and read number;
- DATA reads, indexed by byte number;
- the results of the transport writes, indexed by write number.

Files:

| file | module | contents |
|---|---|---|
| kernel_types.dfy | KernelTypes | u8/u16/u32 as bit-vectors, errno values, `Option`, `Min`, `DivRoundUp` |
| rt2880_clock.dfy | Rt2880Clock | fls, roundup_pow_of_two, ilog2, the prescale and its bracketing, the speed windows |
| rt2880_regs.dfy | Rt2880Regs | register layout, set/clear-bits, the CFG and arbiter bit-field encoders |
| rt2880_spi.dfy | Rt2880Spi | controller state, set_cs, setup, prepare_message, wait_ready, transfer_one |
| ili9488.dfy | Ili9488 | set_addr_win, set_var and their decoders |
| ili9488_vmem.dfy | Ili9488Vmem | fbtft_write_vmem24_bus8: chunking, staging, the write loop |

## Behaviour of note

- **Fast speeds.** For clk/2 < speed < clk, `rt2880_spi_baudrate_get` yields prescale 0,
  divisor 2. A speed >= clk would make it evaluate ilog2(0). Setup rejects every speed
  above clk/2, and the model's `Prescale` requires `speed < clk`. The prescale is
  computed without 32-bit wrap-around (see Left out).
- **Start byte.** It is written into the staging buffer once, before the chunk loop.
  It stays in place for every chunk because the copies start one byte further on.
- **Other rotations.** A rotation other than 0/90/180/270 is not an error: `set_var`
  writes no MADCTL and still returns 0.
- **Timeouts.** A timed-out transfer does not touch the registers again. The STARTWR or
  STARTRD bit stays set in the cached CTL value.
- **Prescale 7.** One speed that setup accepts reaches CFG as prescale 7, which stops
  the SPI clock. See Findings.

## Model

| member | source | states |
|---|---|---|
| KernelTypes.DivRoundUp | source/linux-5.4.171/drivers/spi/spi-rt2880.c:178 | DIV_ROUND_UP(n, d) is the least q with n <= d*q |
| Rt2880Clock.FlsBounds | source/linux-5.4.171/drivers/spi/spi-rt2880.c:179-182 | fls(x) is the number of binary digits of x: 2^(fls(x)-1) <= x < 2^fls(x) |
| Rt2880Clock.RoundUpPowOfTwo | source/linux-5.4.171/drivers/spi/spi-rt2880.c:179 | roundup_pow_of_two(n) is a power of two with n <= r < 2n |
| Rt2880Clock.ILog2 | source/linux-5.4.171/drivers/spi/spi-rt2880.c:182 | ilog2(n) is the k with 2^k <= n < 2^(k+1) |
| Rt2880Clock.ILog2Pow2 | source/linux-5.4.171/drivers/spi/spi-rt2880.c:182 | ilog2 of 2^k is k, so `ilog2(rate / 2)` recovers the exponent of the rounded rate less one |
| Rt2880Clock.RoundedRate | source/linux-5.4.171/drivers/spi/spi-rt2880.c:178-179 | for a rate >= 2 the rounded rate is 2^k with k >= 1 and 2^(k-1) < rate <= 2^k |
| Rt2880Clock.PrescaleBracket | source/linux-5.4.171/drivers/spi/spi-rt2880.c:174-182 | the rounded rate is at least 2, and the prescale it gives brackets the clock ratio |
| Rt2880Clock.Prescale | source/linux-5.4.171/drivers/spi/spi-rt2880.c:168-195 | the prescale p satisfies speed*2^p < clk <= speed*2^(p+1): the bus clock clk/2^(p+1) does not exceed the speed, and the next faster divisor would; this is what the 32-bit C code computes when clk + speed <= 2^32 (see Left out) |
| Rt2880Clock.PrescaleDivisorOptimal | source/linux-5.4.171/drivers/spi/spi-rt2880.c:174-182 | the divisor 2^(p+1) is the least power of two at least ceil(clk/speed): 2^p < ceil(clk/speed) <= 2^(p+1) |
| Rt2880Clock.PrescaleUnique | source/linux-5.4.171/drivers/spi/spi-rt2880.c:174-182 | that bracket determines the prescale: any exponent satisfying it is the one computed |
| Rt2880Clock.PrescaleBelowDisable | source/linux-5.4.171/drivers/spi/spi-rt2880.c:59-66 | when clk <= 128*speed the prescale is at most 6 (DIV128), never 7 (DISABLE) |
| Rt2880Clock.SupportedSpeedPrescale | source/linux-5.4.171/drivers/spi/spi-rt2880.c:56-66 | for every speed in the rounded-up window [ceil(clk/128), clk/2] the prescale is 0..6, the divisor is one of 2..128, and clk/divisor <= speed; such speeds also pass setup's check |
| Rt2880Clock.FieldBits | source/linux-5.4.171/drivers/spi/spi-rt2880.c:58-66 | a prescale 0..7 as the 3-bit CFG field has the same numeric value |
| Rt2880Clock.AcceptedBelowDisable | source/linux-5.4.171/drivers/spi/spi-rt2880.c:458-459 | every speed in setup's window is below the clock and at least clk/256, so its prescale is at most 7 and fits the 3-bit field |
| Rt2880Clock.AcceptedSpeedPrescale | source/linux-5.4.171/drivers/spi/spi-rt2880.c:56-66 | on setup's window the prescale is at most 7, and at most DIV128 (a dividing value) exactly when the speed is in the rounded-up window |
| Rt2880Clock.PrescaleField | source/linux-5.4.171/drivers/spi/spi-rt2880.c:416-417 | the value OR-ed into CFG for any speed setup accepts is the computed prescale, at most 7, and at most DIV128 exactly for the rounded-up window |
| Rt2880Clock.SetupAdmitsDisabledPrescale | source/linux-5.4.171/drivers/spi/spi-rt2880.c:310-315 | a speed setup accepts that is outside the rounded-up window must be clk/128 with clk not a multiple of 128, and its prescale is 7, the value that disables the clock |
| Rt2880Clock.DisabledPrescaleExample | source/linux-5.4.171/drivers/spi/spi-rt2880.c:458 | with a 133333333 Hz clock the speed clk/128 = 1041666 passes setup's window and gets prescale 7 |
| Rt2880Regs.SetMaskSets | source/linux-5.4.171/drivers/spi/spi-rt2880.c:154-159 | after setbits the mask bits read as set |
| Rt2880Regs.SetMaskKeeps | source/linux-5.4.171/drivers/spi/spi-rt2880.c:154-159 | setbits keeps every bit outside the mask |
| Rt2880Regs.ClearMaskClears | source/linux-5.4.171/drivers/spi/spi-rt2880.c:161-166 | after clrbits the mask bits read as clear |
| Rt2880Regs.ClearMaskKeeps | source/linux-5.4.171/drivers/spi/spi-rt2880.c:161-166 | clrbits keeps every bit outside the mask |
| Rt2880Regs.SetBitsTwice | source/linux-5.4.171/drivers/spi/spi-rt2880.c:264-266 | setting STARTWR again for the next byte writes the same CTL value |
| Rt2880Regs.CfgWithPrescale | source/linux-5.4.171/drivers/spi/spi-rt2880.c:256-259 | the speed change puts the prescale in CFG's low 3 bits and keeps every other CFG bit |
| Rt2880Regs.ClockModeBits | source/linux-5.4.171/drivers/spi/spi-rt2880.c:394-408 | the CFG clock bits for a CPOL/CPHA pair lie within the polarity and edge bits: SPICLKPOL exactly for CPOL, RXCLKEDGE_FALLING exactly when CPOL and CPHA differ, TXCLKEDGE_FALLING exactly when they agree |
| Rt2880Regs.ClockModeRoundTrip | source/linux-5.4.171/drivers/spi/spi-rt2880.c:394-408 | the four SPI modes get four CFG patterns, and CPOL/CPHA decode back from the pattern |
| Rt2880Regs.PrepareCfg | source/linux-5.4.171/drivers/spi/spi-rt2880.c:383-419 | the written CFG has MSBFIRST exactly when the device is not LSB-first, all three clock bits of the mode (polarity, receive edge, transmit edge), the given prescale, and every other bit as before |
| Rt2880Regs.ArbiterOffset | source/linux-5.4.171/drivers/spi/spi-rt2880.c:197-206 | both controllers address the same arbiter register: bus 1's window is DEV_OFFSET further on |
| Rt2880Regs.ArbiterUpdate | source/linux-5.4.171/drivers/spi/spi-rt2880.c:330-355 | the bus's polarity bit becomes CS_HIGH, bus 1 sets ARB_EN, and no other bit changes |
| Rt2880Regs.ArbiterUpdateKeeps0 | source/linux-5.4.171/drivers/spi/spi-rt2880.c:333-349 | controller 0's update touches no bit outside SPI0_POR, SPI1_POR and ARB_EN |
| Rt2880Regs.ArbiterUpdateKeeps1 | source/linux-5.4.171/drivers/spi/spi-rt2880.c:334-355 | controller 1's update touches no bit outside SPI0_POR, SPI1_POR and ARB_EN |
| Rt2880Regs.ArbiterBusesCommute | source/linux-5.4.171/drivers/spi/spi-rt2880.c:330-358 | setting up controllers 0 and 1 in either order leaves the same arbiter value |
| Rt2880Regs.ArbiterBusesIndependent | source/linux-5.4.171/drivers/spi/spi-rt2880.c:330-358 | after both setups each polarity bit is its own controller's CS_HIGH, ARB_EN is set, and every other bit is unchanged |
| Rt2880Regs.ForceMode3 | source/linux-5.4.171/drivers/spi/spi-rt2880.c:324-328 | mode 0 becomes mode 3, every other mode and every other flag is unchanged |
| Rt2880Regs.BitsPerWordOnlyEight | source/linux-5.4.171/drivers/spi/spi-rt2880.c:317-322 | the word-size check passes exactly for 8-bit words |
| Rt2880Spi.SetCs | source/linux-5.4.171/drivers/spi/spi-rt2880.c:208-216 | SPIENA is set exactly when enabling; one CTL write; no other CTL bit and no other register changes |
| Rt2880Spi.SpiSetCs | source/linux-5.4.171/drivers/spi/spi-rt2880.c:292-302 | the two inversions cancel: SPIENA ends up set exactly when "selected" agrees with "active high" |
| Rt2880Spi.ProgramArbiter | source/linux-5.4.171/drivers/spi/spi-rt2880.c:330-358 | the arbiter register is written once, and only when its value changes; CFG and CTL are untouched |
| Rt2880Spi.Setup | source/linux-5.4.171/drivers/spi/spi-rt2880.c:304-366 | returns -EINVAL exactly for a speed outside [clk/128, clk/2] or a word size other than 8, changing nothing; otherwise returns 0, upgrades mode 0, programs the arbiter, and deselects the device: SPIENA is set exactly when chip select is active low |
| Rt2880Spi.SetupRunsMode0AsMode3 | source/linux-5.4.171/drivers/spi/spi-rt2880.c:324-328 | a mode-0 device that passed setup is configured with mode 3's CFG clock pattern |
| Rt2880Spi.PrepareMessage | source/linux-5.4.171/drivers/spi/spi-rt2880.c:368-422 | for any speed setup accepts: no write when mode and speed are unchanged; otherwise one CFG write that programs the bit order, all three clock bits of the mode and the prescale, keeps every other bit, and caches mode and speed; the prescale field is 7 (clock stopped) exactly when the speed is outside the rounded-up window |
| Rt2880Spi.SetupThenPrepareDisablesClock | source/linux-5.4.171/drivers/spi/spi-rt2880.c:310-315 | after a successful setup, prepare_message writes prescale 7 exactly for a device speed outside the rounded-up window, which is then clk/128 with clk not a multiple of 128 |
| Rt2880Spi.DisabledClockExample | source/linux-5.4.171/drivers/spi/spi-rt2880.c:417-419 | a 133333333 Hz clock and a device limited to 1041666 Hz pass setup, and prepare_message then writes prescale 7 into CFG |
| Rt2880Spi.SpeedUpdate | source/linux-5.4.171/drivers/spi/spi-rt2880.c:253-260 | for any speed setup accepts: a changed speed rewrites only CFG's prescale bits (one write) and caches the speed, and the field is 7 exactly outside the rounded-up window; an unchanged speed does nothing |
| Rt2880Spi.WaitReady | source/linux-5.4.171/drivers/spi/spi-rt2880.c:218-229 | returns 0 exactly when one of the first wait_loops*len STAT reads shows not-busy, else -ETIMEDOUT after exactly that many reads; every read but the last was busy |
| Rt2880Spi.TxTraceWritesBytesInOrder | source/linux-5.4.171/drivers/spi/spi-rt2880.c:262-273 | the transmit phase writes exactly the transmit bytes to DATA, in order, zero-extended |
| Rt2880Spi.RxTraceWritesNoData | source/linux-5.4.171/drivers/spi/spi-rt2880.c:275-286 | the receive phase writes nothing to DATA |
| Rt2880Spi.LowByte | source/linux-5.4.171/drivers/spi/spi-rt2880.c:284 | the received byte is the low 8 bits of the DATA read |
| Rt2880Spi.TxStateRegs | source/linux-5.4.171/drivers/spi/spi-rt2880.c:262-273 | sending bytes never changes CFG or the arbiter, and leaves CTL with STARTWR set |
| Rt2880Spi.TxStateWrites | source/linux-5.4.171/drivers/spi/spi-rt2880.c:262-273 | sending k bytes appends, per byte, the DATA write and the same STARTWR CTL write |
| Rt2880Spi.RxStateRegs | source/linux-5.4.171/drivers/spi/spi-rt2880.c:275-286 | starting reads never changes CFG or the arbiter, and leaves CTL with STARTRD set |
| Rt2880Spi.RxStateWrites | source/linux-5.4.171/drivers/spi/spi-rt2880.c:275-286 | starting k reads appends the STARTRD CTL write k times |
| Rt2880Spi.Transmit | source/linux-5.4.171/drivers/spi/spi-rt2880.c:262-273 | stops at the first byte whose wait times out, which exists exactly when some wait in range is not ready; every byte up to and including it was written |
| Rt2880Spi.Receive | source/linux-5.4.171/drivers/spi/spi-rt2880.c:275-286 | stops at the first timed-out wait; the bytes kept are the low bytes of the DATA reads, one per completed wait |
| Rt2880Spi.MoveBytes | source/linux-5.4.171/drivers/spi/spi-rt2880.c:262-289 | completes exactly when every wait is ready; a transmit timeout skips the receive phase; the registers hold the sent bytes and the started reads; the received bytes are the low bytes of the DATA reads |
| Rt2880Spi.TransferOne | source/linux-5.4.171/drivers/spi/spi-rt2880.c:244-290 | the speed change, then the transfer's bytes; the status names the first timed-out wait; the result is 0 exactly for a completed transfer and -ETIMEDOUT otherwise; a zero-length transfer only changes the speed |
| Rt2880Spi.TransferWrites | source/linux-5.4.171/drivers/spi/spi-rt2880.c:253-286 | a transfer's register writes are the speed change, per sent byte a DATA write and a STARTWR CTL write, then one STARTRD CTL write per started read; only the sent bytes reach DATA, in order |
| Rt2880Spi.TransferDataWrites | source/linux-5.4.171/drivers/spi/spi-rt2880.c:253-273 | the speed change writes nothing to DATA, so the DATA writes of a transfer are the sent bytes |
| Ili9488.Word16RoundTrip | source/linux-5.4.171/drivers/staging/fbtft/fb_ili9488.c:44 | the byte pair `v >> 8`, `v & 0xFF` encodes v's low 16 bits, and every coordinate in 0..65535 exactly |
| Ili9488.Bounds | source/linux-5.4.171/drivers/staging/fbtft/fb_ili9488.c:44-47 | an axis goes out as four bytes: start then end, 16 bits each, most significant first |
| Ili9488.SetAddrWin | source/linux-5.4.171/drivers/staging/fbtft/fb_ili9488.c:39-51 | three commands: column range (0x2A), page range (0x2B), memory write (0x2C); the ranges carry the coordinates modulo 2^16 |
| Ili9488.AddrWinRoundTrip | source/linux-5.4.171/drivers/staging/fbtft/fb_ili9488.c:39-51 | decoding the commands gives back any window within 16-bit coordinates |
| Ili9488.RotationBitsValues | source/linux-5.4.171/drivers/staging/fbtft/fb_ili9488.c:54-78 | rotations 0, 270, 180 and 90 select MADCTL bits 0x40, 0x30, 0x80 and 0xE0 |
| Ili9488.SetVar | source/linux-5.4.171/drivers/staging/fbtft/fb_ili9488.c:60-87 | one MADCTL write exactly for rotations 0/90/180/270, none otherwise; the pixel layout becomes 8-bit R, G, B at offsets 16, 8, 0; returns 0 |
| Ili9488.MadctlRoundTrip | source/linux-5.4.171/drivers/staging/fbtft/fb_ili9488.c:64-79 | the MADCTL byte determines the rotation, and its bit 3 is the BGR flag |
| Ili9488.MadctlDistinct | source/linux-5.4.171/drivers/staging/fbtft/fb_ili9488.c:64-79 | with the same colour order, different rotations give different MADCTL bytes |
| Ili9488Vmem.Header | source/linux-5.4.171/drivers/staging/fbtft/fb_ili9488.c:115-119 | with a start byte, each write begins with one byte, the start byte with bit 1 set; without one, nothing precedes the pixels |
| Ili9488Vmem.Capacity | source/linux-5.4.171/drivers/staging/fbtft/fb_ili9488.c:112-118 | a chunk holds at least 3 pixels, and a full chunk plus its start byte fits in the buffer |
| Ili9488Vmem.ChunksConcat | source/linux-5.4.171/drivers/staging/fbtft/fb_ili9488.c:122-146 | joining the chunks gives back the pixel bytes |
| Ili9488Vmem.ChunksCount | source/linux-5.4.171/drivers/staging/fbtft/fb_ili9488.c:122-146 | the number of chunks is ceil(bytes / chunk size) |
| Ili9488Vmem.ChunksSizes | source/linux-5.4.171/drivers/staging/fbtft/fb_ili9488.c:123-145 | every chunk but the last is full; the last is non-empty |
| Ili9488Vmem.Put4 | source/linux-5.4.171/drivers/staging/fbtft/fb_ili9488.c:129-131 | a 4-byte word copy changes exactly the four destination bytes, to the source bytes |
| Ili9488Vmem.PutPixels4 | source/linux-5.4.171/drivers/staging/fbtft/fb_ili9488.c:128-133 | the three word copies of the fast path copy exactly 12 bytes (four pixels) |
| Ili9488Vmem.PutPixel | source/linux-5.4.171/drivers/staging/fbtft/fb_ili9488.c:133-138 | the remainder path copies exactly one pixel's three bytes |
| Ili9488Vmem.StagePixels | source/linux-5.4.171/drivers/staging/fbtft/fb_ili9488.c:127-138 | the two copy loops together place the chunk's 3*to_copy bytes after the start byte and leave the rest of the buffer as it was |
| Ili9488Vmem.PixelSlice | source/linux-5.4.171/drivers/staging/fbtft/fb_ili9488.c:102-103 | the buffered path covers the range's whole pixels: a multiple of 3 bytes, fewer than 3 short of len, byte for byte the framebuffer from offset on |
| Ili9488Vmem.StageChunk | source/linux-5.4.171/drivers/staging/fbtft/fb_ili9488.c:128-142 | a write hands the transport the start byte (if any) followed by the chunk, and the start byte stays in place for the next chunk |
| Ili9488Vmem.SendChunks | source/linux-5.4.171/drivers/staging/fbtft/fb_ili9488.c:122-147 | the writes are the chunks in order, each behind the header; all writes before the last succeeded; stopping early means the last write failed, and its result is returned |
| Ili9488Vmem.WriteBuffered | source/linux-5.4.171/drivers/staging/fbtft/fb_ili9488.c:112-147 | as SendChunks for the range's pixels; when the result is not negative, the payloads of the writes joined are exactly the pixel bytes |
| Ili9488Vmem.DeliveredPixels | source/linux-5.4.171/drivers/staging/fbtft/fb_ili9488.c:122-147 | when every chunk went out, stripping the header from each write and joining them gives the pixel bytes |
| Ili9488Vmem.WritesFitBuffer | source/linux-5.4.171/drivers/staging/fbtft/fb_ili9488.c:113-123 | every write is the header plus at least one byte, and fits the staging buffer |
| Ili9488Vmem.WriteVmem24Bus8 | source/linux-5.4.171/drivers/staging/fbtft/fb_ili9488.c:89-148 | without a staging buffer, one write of the len bytes and its result; with one, the buffered behaviour above, every write fits the buffer, and fewer than 3 bytes mean no write and result 0 |

## Left out

- Probe, remove, driver registration, the clock enable/disable and the reset line of
  spi-rt2880 are left out: they are platform glue with no logic to prove. The same
  holds for `hw_reset_count`, `rt2880_dump_reg` and the debug messages.
- The wait-loop budget is left out, because it depends on `HZ` and `loops_per_jiffy`,
  which are kernel constants outside this model. The budget computed in
  `rt2880_spi_baudrate_get` (lines 185-187) is a field of `Master` that the model
  never recomputes.
- Rt2880Clock.Prescale: computes `DIV_ROUND_UP(clk, speed)` and its rounding with
  unbounded integers. In the driver `clk_get_rate` returns an `unsigned long` (32 bits
  on these MIPS32 SoCs), and the rate is a `u32`. So `clk + speed - 1` would wrap once
  `clk + speed > 2^32`, and `roundup_pow_of_two` of a rate above 2^31 is undefined. The
  model assumes `clk + speed <= 2^32`. That holds for every RT2880/MT7621 reference
  clock, which are a few hundred MHz, and every speed in setup's window. The bracket
  and the results built on it hold under that assumption only.
- Rt2880Spi.TransferOne: requires `waitLoops >= 1`. The u16 budget `2*x + 100` could
  wrap to 0 only for an absurd clock ratio.
- Rt2880Spi.WaitReady: requires a budget of at least 1. With a budget of 0 the C loop
  decrements past zero; that behaviour is not modelled.
- The chip-select GPIO branch of `spi_set_cs` and the `dc` GPIO of the panel are left
  out. They are calls into the GPIO layer, which is not part of this model.
- Rt2880Spi.PrepareMessage: when the mode or speed changes it requires a non-zero
  speed in setup's window (`SpeedAccepted`). The driver's own check in setup (lines
  310-315) refuses every device speed outside that window, as `Rt2880Spi.Setup`'s
  `-EINVAL` ensures states. A non-zero speed is assumed: the SPI core, which is not part
  of this model, replaces a zero `max_speed_hz` with the controller's maximum.
- Rt2880Spi.SpeedUpdate: requires the same window for a transfer speed, as do
  Rt2880Spi.TransferOne and Rt2880Spi.TransferWrites. This is an assumption about the
  SPI core, which is not part of this model: it clamps a transfer speed to the
  controller's `max_speed_hz` (clk/2, line 459), refuses one below its `min_speed_hz`
  (clk/128, line 458), and fills in a zero speed.
- Rt2880Spi.PrepareMessage: its return value is left out, because the C function
  always returns 0.
- Rt2880Regs.ArbiterBusesCommute and Rt2880Regs.ArbiterBusesIndependent cover two
  setups that run one after the other. The arbiter register is shared by both
  controllers, but each `Master` holds its own copy of it (`io.arb`). A caller modelling
  both controllers must pass the value one setup wrote on to the other. The driver's
  read-modify-write of that register (lines 331-358) takes no lock. Two setups that
  interleave could lose one update; concurrent setups are not modelled.
- Ordering of MMIO accesses, memory barriers, and the self-clearing of STARTWR/STARTRD
  in hardware are left out. A register reads back the last value the driver wrote.
- Rt2880Regs.BitsPerWordSupported: a word size outside 1..32 makes the C shift
  undefined; it is modelled as a rejection.
- `default_init_sequence` and the fbtft display registration are left out. They are
  data, not logic.
- Ili9488.SetAddrWin: the truncation of each argument to a byte happens in fbtft's
  `write_reg`, which is not part of this model. The model takes the low 8 bits of
  `v >> 8` and `v & 0xFF` (arithmetic shift, i.e. floor division by 256).
- Ili9488.RotationBits: the distinct MADCTL bits are combined with `+`, which equals
  their bitwise OR because no two overlap.
- Ili9488Vmem.WriteVmem24Bus8: requires a staging buffer of at least 12 bytes. The
  buffer is allocated by the fbtft core, which is not part of this model. The driver
  defines `TXBUFLEN` (line 19) but uses it nowhere, and its `display` description
  (lines 150-161) sets no buffer length. A buffer under 12 bytes would make the chunk
  size 0 and the loop would not advance; the 12-byte bound is an assumption.
- Ili9488Vmem.WriteVmem24Bus8: the unbuffered path sends all `len` bytes, while the
  buffered path sends only the `3 * (len / 3)` bytes of whole pixels. Both are modelled
  as written.
- The fbtft core's `write` callback (the transport) is an oracle of results. What it
  does with the bytes is not part of this model.

## Findings

| source | as written | input that shows it | evidently intended | confidence | as-written member | corrected member |
|---|---|---|---|---|---|---|
| source/linux-5.4.171/drivers/spi/spi-rt2880.c:310-315 | setup accepts any max_speed_hz >= min_speed_hz = clk/128 rounded down (line 458) | clk = 133333333 Hz, max_speed_hz = 1041666: DIV_ROUND_UP gives 129, rounded to 256, prescale ilog2(128) = 7 = SPICFG_SPICLK_DISABLE | only speeds with clk <= 128*speed, i.e. the lower bound rounded up, so the divisor stays within 2..128 | not executed; high for the arithmetic | Rt2880Spi.SetupThenPrepareDisablesClock | Rt2880Clock.SupportedSpeedPrescale |

=== FILE: ili9488.dfy ===
/** The ILI9488 display's command side: the address window for a pixel write
    (set_addr_win) and the memory-access-control byte chosen from the rotation
    (set_var). A command is the MIPI DCS opcode followed by its parameter bytes, as
    write_reg sends them on an 8-bit register bus. */
module Ili9488 {
  import opened KernelTypes

  /** A byte on the bus, as an integer so that the coordinate arithmetic stays linear. */
  type Byte = b: int | 0 <= b < 256

  /** MIPI DCS set_column_address. */
  const DCS_SET_COLUMN_ADDRESS: Byte := 0x2A
  /** MIPI DCS set_page_address. */
  const DCS_SET_PAGE_ADDRESS: Byte := 0x2B
  /** MIPI DCS write_memory_start. */
  const DCS_WRITE_MEMORY_START: Byte := 0x2C
  /** MIPI DCS set_address_mode (MADCTL). */
  const DCS_SET_ADDRESS_MODE: Byte := 0x36

  /** Bit positions in the MADCTL byte. */
  const MEM_Y: nat := 7
  const MEM_X: nat := 6
  const MEM_V: nat := 5
  const MEM_L: nat := 4
  const MEM_BGR: nat := 3

  /** One register write: an opcode and its parameter bytes. */
  datatype Command = Command(cmd: Byte, params: seq<Byte>)

  /** `v >> 8` as the byte write_reg passes on. The shift of a C int is arithmetic, so
      it rounds toward minus infinity like Dafny's `/` by a positive divisor, and only
      the low 8 bits of the result reach the bus. */
  function High8(v: int): Byte
  {
    (v / 256) % 256
  }

  /** `v & 0xFF`: the low 8 bits of a two's-complement int, i.e. v modulo 256. */
  function Low8(v: int): Byte
  {
    v % 256
  }

  /** The 16-bit value a big-endian byte pair encodes. */
  function Word16(hi: Byte, lo: Byte): (w: nat)
    ensures w < 65536
  {
    hi * 256 + lo
  }

  /** The byte pair is the value's low 16 bits, most significant byte first; in
      particular every value in 0..65535 is recovered exactly. */
  lemma Word16RoundTrip(v: int)
    ensures Word16(High8(v), Low8(v)) == v % 65536
    ensures 0 <= v < 65536 ==> Word16(High8(v), Low8(v)) == v
  {
    var q := v / 256;
    var r := v % 256;
    assert v == 256 * q + r;
    var qh := q / 256;
    assert q == 256 * qh + q % 256;
    assert v == 65536 * qh + (256 * (q % 256) + r);
    assert 0 <= 256 * (q % 256) + r < 65536;
  }

  /** The start and end bytes of one axis, as set_addr_win lays them out. */
  function Bounds(s: int, e: int): (p: seq<Byte>)
    ensures |p| == 4
    ensures Word16(p[0], p[1]) == s % 65536 && Word16(p[2], p[3]) == e % 65536
  {
    Word16RoundTrip(s);
    Word16RoundTrip(e);
    [High8(s), Low8(s), High8(e), Low8(e)]
  }

  /** set_addr_win: the column range, the row range, then the start of a memory write.
      Each range goes out as start and end, 16 bits each, most significant byte first. */
  function SetAddrWin(xs: int, ys: int, xe: int, ye: int): (cmds: seq<Command>)
    ensures |cmds| == 3
    ensures cmds[0].cmd == DCS_SET_COLUMN_ADDRESS && |cmds[0].params| == 4
    ensures cmds[1].cmd == DCS_SET_PAGE_ADDRESS && |cmds[1].params| == 4
    ensures cmds[2] == Command(DCS_WRITE_MEMORY_START, [])
    ensures Word16(cmds[0].params[0], cmds[0].params[1]) == xs % 65536
    ensures Word16(cmds[0].params[2], cmds[0].params[3]) == xe % 65536
    ensures Word16(cmds[1].params[0], cmds[1].params[1]) == ys % 65536
    ensures Word16(cmds[1].params[2], cmds[1].params[3]) == ye % 65536
  {
    [ Command(DCS_SET_COLUMN_ADDRESS, Bounds(xs, xe)),
      Command(DCS_SET_PAGE_ADDRESS, Bounds(ys, ye)),
      Command(DCS_WRITE_MEMORY_START, []) ]
  }

  /** A window in display coordinates. */
  datatype Window = Window(xs: nat, ys: nat, xe: nat, ye: nat)

  /** What a controller makes of a command sequence: the window of a column command,
      a page command and a memory-write start, in that order. */
  function DecodeAddrWin(cmds: seq<Command>): Option<Window>
  {
    if |cmds| == 3
       && cmds[0].cmd == DCS_SET_COLUMN_ADDRESS && |cmds[0].params| == 4
       && cmds[1].cmd == DCS_SET_PAGE_ADDRESS && |cmds[1].params| == 4
       && cmds[2] == Command(DCS_WRITE_MEMORY_START, [])
    then
      var c := cmds[0].params;
      var p := cmds[1].params;
      Some(Window(Word16(c[0], c[1]), Word16(p[0], p[1]), Word16(c[2], c[3]), Word16(p[2], p[3])))
    else None
  }

  /** Every window within the 16-bit coordinate range reaches the controller intact. */
  lemma AddrWinRoundTrip(xs: int, ys: int, xe: int, ye: int)
    requires 0 <= xs < 65536 && 0 <= ys < 65536 && 0 <= xe < 65536 && 0 <= ye < 65536
    ensures DecodeAddrWin(SetAddrWin(xs, ys, xe, ye)) == Some(Window(xs, ys, xe, ye))
  {
    Word16RoundTrip(xs);
    Word16RoundTrip(ys);
    Word16RoundTrip(xe);
    Word16RoundTrip(ye);
  }

  /** The MADCTL bits set_var chooses for a rotation, without the colour-order bit;
      None for a rotation it has no case for. The bits or-ed together are distinct, so
      their sum is their bitwise or. */
  function RotationBits(rotate: nat): Option<nat>
  {
    if rotate == 0 then Some(Pow2(MEM_X))
    else if rotate == 270 then Some(Pow2(MEM_V) + Pow2(MEM_L))
    else if rotate == 180 then Some(Pow2(MEM_Y))
    else if rotate == 90 then Some(Pow2(MEM_Y) + Pow2(MEM_X) + Pow2(MEM_V))
    else None
  }

  /** `bgr << MEM_BGR`: the colour-order bit. */
  function BgrBit(bgr: bool): nat
  {
    (if bgr then 1 else 0) * Pow2(MEM_BGR)
  }

  /** The four rotations and their MADCTL values. */
  lemma RotationBitsValues()
    ensures RotationBits(0) == Some(0x40)
    ensures RotationBits(270) == Some(0x30)
    ensures RotationBits(180) == Some(0x80)
    ensures RotationBits(90) == Some(0xE0)
  {
    assert Pow2(4) == 16 && Pow2(5) == 32 && Pow2(6) == 64 && Pow2(7) == 128;
  }

  /** A colour channel's place in a pixel. */
  datatype Bitfield = Bitfield(offset: nat, length: nat)

  /** The parts of the framebuffer's variable screen information set_var reads and
      writes. */
  datatype VarScreenInfo = VarScreenInfo(rotate: nat, red: Bitfield, green: Bitfield, blue: Bitfield)

  /** What set_var leaves behind: the register writes, the updated screen information
      and the return value. */
  datatype SetVarResult = SetVarResult(cmds: seq<Command>, info: VarScreenInfo, ret: int)

  /** set_var: for a rotation of 0, 90, 180 or 270 one MADCTL write whose value is the
      rotation's bits with the colour-order bit or-ed in; no write for any other
      rotation. In every case the pixel layout becomes 8-bit red, green and blue at bit
      offsets 16, 8 and 0, and the result is 0. */
  function SetVar(info: VarScreenInfo, bgr: bool): (r: SetVarResult)
    ensures r.ret == 0
    ensures r.info == info.(red := Bitfield(16, 8), green := Bitfield(8, 8), blue := Bitfield(0, 8))
    ensures RotationBits(info.rotate).None? <==> r.cmds == []
    ensures RotationBits(info.rotate).Some? ==>
      r.cmds == [Command(DCS_SET_ADDRESS_MODE, [Madctl(info.rotate, bgr)])]
  {
    var cmds :=
      if RotationBits(info.rotate).Some? then [Command(DCS_SET_ADDRESS_MODE, [Madctl(info.rotate, bgr)])]
      else [];
    SetVarResult(cmds, info.(red := Bitfield(16, 8), green := Bitfield(8, 8), blue := Bitfield(0, 8)), 0)
  }

  /** The rotation a MADCTL value selects, read from the row/column order, exchange and
      refresh bits; the colour-order bit is ignored. */
  function DecodeRotation(madctl: Byte): Option<nat>
  {
    var bits := madctl / 16 * 16;
    if bits == 0x40 then Some(0)
    else if bits == 0x30 then Some(270)
    else if bits == 0x80 then Some(180)
    else if bits == 0xE0 then Some(90)
    else None
  }

  /** The MADCTL value set_var writes for a rotation and colour order. */
  function Madctl(rotate: nat, bgr: bool): Byte
    requires RotationBits(rotate).Some?
  {
    RotationBitsValues();
    assert Pow2(3) == 8;
    RotationBits(rotate).value + BgrBit(bgr)
  }

  /** The MADCTL byte set_var writes determines the rotation and the colour order:
      decoding it gives back the rotation, and bit 3 is the colour order. */
  lemma MadctlRoundTrip(rotate: nat, bgr: bool)
    requires RotationBits(rotate).Some?
    ensures DecodeRotation(Madctl(rotate, bgr)) == Some(rotate)
    ensures (Madctl(rotate, bgr) / Pow2(MEM_BGR) % 2 == 1) <==> bgr
  {
    RotationBitsValues();
    assert Pow2(3) == 8;
    if bgr {
      if rotate == 0 { assert Madctl(rotate, bgr) == 0x48; }
      else if rotate == 270 { assert Madctl(rotate, bgr) == 0x38; }
      else if rotate == 180 { assert Madctl(rotate, bgr) == 0x88; }
      else { assert Madctl(rotate, bgr) == 0xE8; }
    } else {
      if rotate == 0 { assert Madctl(rotate, bgr) == 0x40; }
      else if rotate == 270 { assert Madctl(rotate, bgr) == 0x30; }
      else if rotate == 180 { assert Madctl(rotate, bgr) == 0x80; }
      else { assert Madctl(rotate, bgr) == 0xE0; }
    }
  }

  /** For a fixed colour order the four rotations give four different MADCTL bytes. */
  lemma MadctlDistinct(r1: nat, r2: nat, bgr: bool)
    requires RotationBits(r1).Some? && RotationBits(r2).Some? && r1 != r2
    ensures Madctl(r1, bgr) != Madctl(r2, bgr)
  {
    MadctlRoundTrip(r1, bgr);
    MadctlRoundTrip(r2, bgr);
  }
}

=== FILE: ili9488_vmem.dfy ===
/** fbtft_write_vmem24_bus8: sends a slice of a 24-bit-per-pixel framebuffer to the
    display. Without a staging buffer the slice goes out in one transport write. With
    one, whole pixels are copied into it chunk by chunk, after an optional leading start
    byte, and each chunk is written; the first failing write ends the operation. */
module Ili9488Vmem {
  import opened KernelTypes

  /** The parts of the fbtft device state the function uses: the framebuffer, the
      staging buffer (None when the driver has none) and the start byte. */
  datatype Par = Par(screen: seq<u8>, txbuf: Option<seq<u8>>, startbyte: u8)

  /** The byte sent ahead of every chunk when the device has a start byte: the start
      byte with bit 1 (data, not command) set. */
  function Header(startbyte: u8): (h: seq<u8>)
    ensures |h| == if startbyte != 0 then 1 else 0
  {
    if startbyte != 0 then [startbyte | 0x2] else []
  }

  /** How many pixels one chunk can hold: the buffer's pixel count rounded down to a
      multiple of 4, less one pixel when a start byte takes the first byte. A buffer of
      at least 12 bytes leaves room for at least 3 pixels, and a full chunk with its
      start byte fits in the buffer. */
  function Capacity(txLen: nat, startbyte: u8): (cap: nat)
    requires txLen >= 12
    ensures cap >= 3
    ensures |Header(startbyte)| + 3 * cap <= txLen
  {
    var size := txLen / 3 / 4 * 4;
    if startbyte != 0 then size - 1 else size
  }

  /** `s` cut into pieces of n bytes; only the last piece may be shorter. */
  function Chunks(s: seq<u8>, n: nat): seq<seq<u8>>
    requires n > 0
    decreases |s|
  {
    if |s| == 0 then []
    else if |s| <= n then [s]
    else [s[..n]] + Chunks(s[n..], n)
  }

  /** The concatenation of a sequence of byte strings. */
  function Concat(parts: seq<seq<u8>>): seq<u8>
  {
    if |parts| == 0 then [] else parts[0] + Concat(parts[1..])
  }

  /** Joining the chunks gives back the bytes that were cut. */
  lemma {:induction false} ChunksConcat(s: seq<u8>, n: nat)
    requires n > 0
    ensures Concat(Chunks(s, n)) == s
    decreases |s|
  {
    if |s| > n {
      var rest := Chunks(s[n..], n);
      ChunksConcat(s[n..], n);
      assert Chunks(s, n)[1..] == rest;
      assert s == s[..n] + s[n..];
    }
  }

  /** There are ceil(|s| / n) chunks: n * (count - 1) < |s| <= n * count. */
  lemma {:induction false} ChunksCount(s: seq<u8>, n: nat)
    requires n > 0
    ensures n * (|Chunks(s, n)| - 1) < |s| <= n * |Chunks(s, n)|
    decreases |s|
  {
    if |s| > n {
      var c := |Chunks(s[n..], n)|;
      ChunksCount(s[n..], n);
      assert |Chunks(s, n)| == c + 1;
      assert n * (c + 1) == n * c + n;
    }
  }

  /** Every chunk but the last is n bytes long; the last is non-empty and at most n
      bytes. */
  lemma {:induction false} ChunksSizes(s: seq<u8>, n: nat)
    requires n > 0
    ensures forall j :: 0 <= j < |Chunks(s, n)| - 1 ==> |Chunks(s, n)[j]| == n
    ensures forall j :: 0 <= j < |Chunks(s, n)| ==> 0 < |Chunks(s, n)[j]| <= n
    decreases |s|
  {
    if |s| > n {
      var rest := Chunks(s[n..], n);
      ChunksSizes(s[n..], n);
      assert Chunks(s, n) == [s[..n]] + rest;
      forall j | 0 <= j < |Chunks(s, n)|
        ensures 0 < |Chunks(s, n)[j]| <= n
        ensures j < |Chunks(s, n)| - 1 ==> |Chunks(s, n)[j]| == n
      {
        if j > 0 {
          assert Chunks(s, n)[j] == rest[j - 1];
        }
      }
    }
  }

  /** One 4-byte word copy: `dst[at..at+4]` becomes `src[from..from+4]`, the rest of
      dst is kept. */
  function Put4(dst: seq<u8>, at: nat, src: seq<u8>, from: nat): (r: seq<u8>)
    requires at + 4 <= |dst| && from + 4 <= |src|
    ensures |r| == |dst|
    ensures forall k :: 0 <= k < |r| ==> r[k] == if at <= k < at + 4 then src[from + k - at] else dst[k]
  {
    dst[..at] + src[from..from + 4] + dst[at + 4..]
  }

  /** Four pixels as three 4-byte word copies. */
  function PutPixels4(dst: seq<u8>, at: nat, src: seq<u8>, from: nat): (r: seq<u8>)
    requires at + 12 <= |dst| && from + 12 <= |src|
    ensures |r| == |dst|
    ensures forall k :: 0 <= k < |r| ==> r[k] == if at <= k < at + 12 then src[from + k - at] else dst[k]
  {
    Put4(Put4(Put4(dst, at, src, from), at + 4, src, from + 4), at + 8, src, from + 8)
  }

  /** One pixel as three byte copies. */
  function PutPixel(dst: seq<u8>, at: nat, src: seq<u8>, from: nat): (r: seq<u8>)
    requires at + 3 <= |dst| && from + 3 <= |src|
    ensures |r| == |dst|
    ensures forall k :: 0 <= k < |r| ==> r[k] == if at <= k < at + 3 then src[from + k - at] else dst[k]
  {
    dst[at := src[from]][at + 1 := src[from + 1]][at + 2 := src[from + 2]]
  }

  /** Whether buf is orig with `count` bytes from src[from..] placed at buf[base..]. */
  ghost predicate Staged(buf: seq<u8>, orig: seq<u8>, base: nat, src: seq<u8>, from: nat, count: nat)
    requires |buf| == |orig| && base + count <= |buf| && from + count <= |src|
  {
    forall k :: 0 <= k < |buf| ==> buf[k] == if base <= k < base + count then src[from + k - base] else orig[k]
  }

  /** The two copy loops of a chunk: 12 bytes (four pixels) at a time as three 4-byte
      words, then pixel by pixel for the remainder. Together they copy the chunk's
      `3 * pixels` bytes from src[from..] to buf[base..] and leave the rest of buf as
      it was. */
  method StagePixels(buf: seq<u8>, base: nat, src: seq<u8>, from: nat, pixels: nat) returns (out: seq<u8>)
    requires base + 3 * pixels <= |buf| && from + 3 * pixels <= |src|
    ensures |out| == |buf|
    ensures out[..base] == buf[..base]
    ensures out[base..base + 3 * pixels] == src[from..from + 3 * pixels]
    ensures out[base + 3 * pixels..] == buf[base + 3 * pixels..]
  {
    out := buf;
    var words := pixels / 4;
    var i := 0;
    while i < words
      invariant 0 <= i <= words
      invariant |out| == |buf|
      invariant Staged(out, buf, base, src, from, 12 * i)
    {
      var next := PutPixels4(out, base + 12 * i, src, from + 12 * i);
      StagedGrow(out, next, buf, base, src, from, 12 * i, 12);
      out := next;
      i := i + 1;
    }
    i := words * 4;
    while i < pixels
      invariant words * 4 <= i <= pixels
      invariant |out| == |buf|
      invariant Staged(out, buf, base, src, from, 3 * i)
    {
      var next := PutPixel(out, base + 3 * i, src, from + 3 * i);
      StagedGrow(out, next, buf, base, src, from, 3 * i, 3);
      out := next;
      i := i + 1;
    }
    assert Staged(out, buf, base, src, from, 3 * pixels);
    StagedSlices(out, buf, base, src, from, 3 * pixels);
  }

  /** Placing the next m bytes extends a staged prefix by m. */
  lemma StagedGrow(buf: seq<u8>, buf': seq<u8>, orig: seq<u8>, base: nat, src: seq<u8>, from: nat, count: nat, m: nat)
    requires |buf| == |orig| == |buf'| && base + count + m <= |buf| && from + count + m <= |src|
    requires Staged(buf, orig, base, src, from, count)
    requires forall k :: 0 <= k < |buf'| ==>
      buf'[k] == if base + count <= k < base + count + m then src[from + k - base] else buf[k]
    ensures Staged(buf', orig, base, src, from, count + m)
  {
  }

  /** Staged stated with slices. */
  lemma StagedSlices(buf: seq<u8>, orig: seq<u8>, base: nat, src: seq<u8>, from: nat, count: nat)
    requires |buf| == |orig| && base + count <= |buf| && from + count <= |src|
    requires Staged(buf, orig, base, src, from, count)
    ensures buf[..base] == orig[..base]
    ensures buf[base..base + count] == src[from..from + count]
    ensures buf[base + count..] == orig[base + count..]
  {
    assert buf[..base] == orig[..base];
    assert buf[base..base + count] == src[from..from + count];
    assert buf[base + count..] == orig[base + count..];
  }

  /** The pixel bytes the buffered path sends: whole pixels only. */
  function PixelSlice(screen: seq<u8>, offset: nat, len: nat): (s: seq<u8>)
    requires offset + len <= |screen|
    ensures |s| <= len < |s| + 3 && |s| % 3 == 0
    ensures forall i :: 0 <= i < |s| ==> s[i] == screen[offset + i]
  {
    screen[offset..offset + 3 * (len / 3)]
  }

  /** Taking the first chunk off: the chunks of a non-empty s are its first
      min(n, |s|) bytes followed by the chunks of the rest. */
  lemma ChunksStep(s: seq<u8>, n: nat, k: nat)
    requires n > 0 && |s| > 0 && k == Min(n, |s|)
    ensures Chunks(s, n) == [s[..k]] + Chunks(s[k..], n)
  {
    if |s| <= n {
      assert s[..k] == s && s[k..] == [];
    }
  }

  /** Staging one chunk and taking the bytes the transport is given: the start byte
      (kept at the head of the buffer) followed by `pixels` pixels from src[from..]. */
  method StageChunk(buf: seq<u8>, header: seq<u8>, src: seq<u8>, from: nat, pixels: nat)
    returns (buf': seq<u8>, sent: seq<u8>)
    requires |header| <= |buf| && buf[..|header|] == header
    requires |header| + 3 * pixels <= |buf| && from + 3 * pixels <= |src|
    ensures |buf'| == |buf| && buf'[..|header|] == header
    ensures sent == header + src[from..from + 3 * pixels]
  {
    buf' := StagePixels(buf, |header|, src, from, pixels);
    sent := buf'[..|header| + 3 * pixels];
    assert sent == buf'[..|header|] + buf'[|header|..|header| + 3 * pixels];
  }

  /** The writes are the first |writes| chunks, each behind the header, and stopping
      before the last chunk means a write failed. */
  ghost predicate ChunkedWrites(writes: seq<seq<u8>>, header: seq<u8>, chunks: seq<seq<u8>>, ret: int)
  {
    && |writes| <= |chunks|
    && (forall j :: 0 <= j < |writes| ==> writes[j] == header + chunks[j])
    && (|writes| < |chunks| ==> ret < 0)
  }

  /** Every write so far is the header followed by the matching chunk. */
  ghost predicate Framed(writes: seq<seq<u8>>, header: seq<u8>, done: seq<seq<u8>>)
  {
    |writes| == |done| && forall j :: 0 <= j < |writes| ==> writes[j] == header + done[j]
  }

  /** Framed survives one more write of the header and its chunk. */
  lemma FramedSnoc(writes: seq<seq<u8>>, header: seq<u8>, done: seq<seq<u8>>, chunk: seq<u8>)
    requires Framed(writes, header, done)
    ensures Framed(writes + [header + chunk], header, done + [chunk])
  {
    var w := writes + [header + chunk];
    var d := done + [chunk];
    forall j | 0 <= j < |w|
      ensures w[j] == header + d[j]
    {
      if j < |writes| {
        assert w[j] == writes[j] && d[j] == done[j];
      }
    }
  }

  /** The first m writes all succeeded. */
  predicate AllOk(transport: nat -> int, m: nat)
  {
    forall j :: 0 <= j < m ==> transport(j) >= 0
  }

  /** Cutting off the next chunk keeps the chunks done so far, followed by the chunks
      of what is left, equal to the chunks of the whole. */
  lemma ChunkAdvance(all: seq<u8>, n: nat, done: seq<seq<u8>>, pos: nat, k: nat)
    requires n > 0 && pos < |all| && k == Min(n, |all| - pos)
    requires done + Chunks(all[pos..], n) == Chunks(all, n)
    ensures (done + [all[pos..pos + k]]) + Chunks(all[pos + k..], n) == Chunks(all, n)
  {
    var rest := all[pos..];
    ChunksStep(rest, n, k);
    assert rest[..k] == all[pos..pos + k];
    assert rest[k..] == all[pos + k..];
  }

  /** One round of the buffered loop on the ghost bookkeeping: sending the header and
      the next chunk keeps the writes framed and the chunks accounted for. */
  lemma SendStep(pixels: seq<u8>, n: nat, header: seq<u8>, done: seq<seq<u8>>, writes: seq<seq<u8>>, pos: nat, k: nat)
    requires n > 0 && pos < |pixels| && k == Min(n, |pixels| - pos)
    requires done + Chunks(pixels[pos..], n) == Chunks(pixels, n)
    requires Framed(writes, header, done)
    ensures done + [pixels[pos..pos + k]] + Chunks(pixels[pos + k..], n) == Chunks(pixels, n)
    ensures Framed(writes + [header + pixels[pos..pos + k]], header, done + [pixels[pos..pos + k]])
  {
    ChunkAdvance(pixels, n, done, pos, k);
    FramedSnoc(writes, header, done, pixels[pos..pos + k]);
  }

  /** The buffered loop: `pixels` (whole pixels only) goes out in chunks of at most
      `cap` pixels, each staged in buf behind the header. `transport(j)` is the result
      of the j-th write; the first negative one ends the loop. */
  method SendChunks(buf: seq<u8>, header: seq<u8>, pixels: seq<u8>, cap: nat, transport: nat -> int)
    returns (ret: int, writes: seq<seq<u8>>)
    requires cap > 0 && |pixels| % 3 == 0
    requires |header| + 3 * cap <= |buf| && buf[..|header|] == header
    ensures ChunkedWrites(writes, header, Chunks(pixels, 3 * cap), ret)
    ensures forall j :: 0 <= j < |writes| - 1 ==> transport(j) >= 0
    ensures ret == if |writes| == 0 then 0 else transport(|writes| - 1)
  {
    var n := 3 * cap;
    var buf := buf;
    ret := 0;
    writes := [];
    ghost var done: seq<seq<u8>> := [];
    var remain := |pixels| / 3;
    var pos := 0;
    while remain > 0
      invariant |buf| >= |header| + 3 * cap && buf[..|header|] == header
      invariant pos <= |pixels| && |pixels| - pos == 3 * remain
      invariant done + Chunks(pixels[pos..], n) == Chunks(pixels, n)
      invariant Framed(writes, header, done)
      invariant AllOk(transport, |writes|)
      invariant ret == if |writes| == 0 then 0 else transport(|writes| - 1)
      decreases remain
    {
      var toCopy := Min(cap, remain);
      var k := 3 * toCopy;
      var sent;
      buf, sent := StageChunk(buf, header, pixels, pos, toCopy);
      SendStep(pixels, n, header, done, writes, pos, k);
      done := done + [pixels[pos..pos + k]];
      writes := writes + [sent];
      pos := pos + k;
      ret := transport(|writes| - 1);
      if ret < 0 {
        FramedPrefix(writes, header, done, Chunks(pixels[pos..], n), Chunks(pixels, n));
        return;
      }
      remain := remain - toCopy;
    }
    assert pixels[pos..] == [];
    FramedPrefix(writes, header, done, [], Chunks(pixels, n));
  }

  /** The buffered path: the start byte (or-ed with 0x2) goes in the buffer's first
      byte when the device has one, and the range's whole pixels are sent in chunks of
      Capacity pixels. */
  method WriteBuffered(txbuf: seq<u8>, startbyte: u8, screen: seq<u8>, offset: nat, len: nat, transport: nat -> int)
    returns (ret: int, writes: seq<seq<u8>>)
    requires offset + len <= |screen|
    requires |txbuf| >= 12
    ensures ChunkedWrites(writes, Header(startbyte), Chunks(PixelSlice(screen, offset, len), 3 * Capacity(|txbuf|, startbyte)), ret)
    ensures ret >= 0 ==> Concat(Payloads(writes, |Header(startbyte)|)) == PixelSlice(screen, offset, len)
    ensures forall j :: 0 <= j < |writes| - 1 ==> transport(j) >= 0
    ensures ret == if |writes| == 0 then 0 else transport(|writes| - 1)
  {
    var header := Header(startbyte);
    var buf := txbuf;
    if startbyte != 0 {
      buf := buf[0 := startbyte | 0x2];
    }
    assert buf[..|header|] == header;
    var pixels := PixelSlice(screen, offset, len);
    var cap := Capacity(|txbuf|, startbyte);
    ret, writes := SendChunks(buf, header, pixels, cap, transport);
    if ret >= 0 {
      DeliveredPixels(writes, header, pixels, 3 * cap);
    }
  }

  /** Framed writes that cover a prefix of the chunks are the header followed by the
      chunks themselves, one for one. */
  lemma FramedPrefix(writes: seq<seq<u8>>, header: seq<u8>, done: seq<seq<u8>>, rest: seq<seq<u8>>, all: seq<seq<u8>>)
    requires Framed(writes, header, done) && done + rest == all
    ensures |writes| <= |all| && forall j :: 0 <= j < |writes| ==> writes[j] == header + all[j]
    ensures |writes| == |all| <==> rest == []
  {
    assert forall j :: 0 <= j < |done| ==> (done + rest)[j] == done[j];
  }

  /** What each write carries after the first h bytes (the header). */
  function Payloads(writes: seq<seq<u8>>, h: nat): (p: seq<seq<u8>>)
    ensures |p| == |writes|
  {
    seq(|writes|, j requires 0 <= j < |writes| => if h <= |writes[j]| then writes[j][h..] else [])
  }

  /** When every chunk went out behind the header, the payloads of the writes joined
      together are exactly the pixel bytes: nothing is lost, repeated or reordered. */
  lemma DeliveredPixels(writes: seq<seq<u8>>, header: seq<u8>, pixels: seq<u8>, n: nat)
    requires n > 0 && |writes| == |Chunks(pixels, n)|
    requires forall j :: 0 <= j < |writes| ==> writes[j] == header + Chunks(pixels, n)[j]
    ensures Concat(Payloads(writes, |header|)) == pixels
  {
    var p := Payloads(writes, |header|);
    forall j | 0 <= j < |writes|
      ensures p[j] == Chunks(pixels, n)[j]
    {
      assert (header + Chunks(pixels, n)[j])[|header|..] == Chunks(pixels, n)[j];
    }
    assert p == Chunks(pixels, n);
    ChunksConcat(pixels, n);
  }

  /** Every write fits the staging buffer and carries at least one byte after the
      header. */
  lemma WritesFitBuffer(writes: seq<seq<u8>>, header: seq<u8>, pixels: seq<u8>, n: nat, ret: int, txLen: nat)
    requires n > 0 && |header| + n <= txLen
    requires ChunkedWrites(writes, header, Chunks(pixels, n), ret)
    ensures forall j :: 0 <= j < |writes| ==> |header| < |writes[j]| <= txLen
  {
    ChunksSizes(pixels, n);
  }

  /** fbtft_write_vmem24_bus8. Without a staging buffer the framebuffer bytes
      [offset, offset + len) go out in one write and its result is returned. With one,
      the whole pixels of that range are sent in chunks (WriteBuffered), each chunk
      preceded by the start byte when the device has one. */
  method WriteVmem24Bus8(par: Par, offset: nat, len: nat, transport: nat -> int)
    returns (ret: int, writes: seq<seq<u8>>)
    requires offset + len <= |par.screen|
    requires par.txbuf.Some? ==> |par.txbuf.value| >= 12
    ensures par.txbuf.None? ==> writes == [par.screen[offset..offset + len]] && ret == transport(0)
    ensures par.txbuf.Some? ==> ChunkedWrites(writes, Header(par.startbyte),
      Chunks(PixelSlice(par.screen, offset, len), 3 * Capacity(|par.txbuf.value|, par.startbyte)), ret)
    ensures par.txbuf.Some? && ret >= 0 ==>
      Concat(Payloads(writes, |Header(par.startbyte)|)) == PixelSlice(par.screen, offset, len)
    ensures par.txbuf.Some? ==> forall j :: 0 <= j < |writes| ==> |writes[j]| <= |par.txbuf.value|
    ensures par.txbuf.Some? && len < 3 ==> writes == [] && ret == 0
    ensures forall j :: 0 <= j < |writes| - 1 ==> transport(j) >= 0
    ensures ret == if |writes| == 0 then 0 else transport(|writes| - 1)
  {
    if par.txbuf.None? {
      return transport(0), [par.screen[offset..offset + len]];
    }
    ret, writes := WriteBuffered(par.txbuf.value, par.startbyte, par.screen, offset, len, transport);
    var cap := Capacity(|par.txbuf.value|, par.startbyte);
    WritesFitBuffer(writes, Header(par.startbyte), PixelSlice(par.screen, offset, len), 3 * cap, ret, |par.txbuf.value|);
  }
}

=== FILE: kernel_types.dfy ===
/** Fixed-width integer types, errno values and the optional-value wrapper shared by
    the two driver models. Register values are 32-bit words, bytes are 8-bit words. */
module KernelTypes {

  type u8 = bv8
  type u16 = bv16
  type u32 = bv32

  /** Linux errno values; the drivers return them negated. */
  const EINVAL: int := 22
  const ETIMEDOUT: int := 110

  /** A value that may be absent, like a NULL reference in C. */
  datatype Option<+T> = None | Some(value: T)

  /** 2^k, the kernel's `1 << k` / BIT(k). */
  function Pow2(k: nat): (r: nat)
    ensures r >= 1
  {
    if k == 0 then 1 else 2 * Pow2(k - 1)
  }

  function Min(a: nat, b: nat): (r: nat)
    ensures r <= a && r <= b && (r == a || r == b)
  {
    if a <= b then a else b
  }

  /** The kernel's DIV_ROUND_UP: the least q with n <= d * q. */
  function DivRoundUp(n: nat, d: nat): (q: nat)
    requires d > 0
    ensures n <= d * q
    ensures q > 0 ==> d * (q - 1) < n
  {
    (n + d - 1) / d
  }
}

=== FILE: rt2880_clock.dfy ===
/** The RT2880 SPI clock prescaler: the bus clock is the reference clock divided by
    2^(p+1), where p is the 3-bit prescale field of the CFG register (0..6; 7 disables
    the clock). Models rt2880_spi_baudrate_get together with the kernel helpers it
    calls (DIV_ROUND_UP, roundup_pow_of_two, ilog2), and the speed bounds the driver
    advertises to the SPI core. */
module Rt2880Clock {
  import opened KernelTypes

  /** Prescale value that stops the SPI clock. */
  const SPICLK_DISABLE: nat := 7
  /** Largest prescale that divides (by 128). */
  const SPICLK_DIV128: nat := 6

  lemma {:induction false} Pow2StrictlyIncreasing(i: nat, j: nat)
    requires i < j
    ensures Pow2(i) < Pow2(j)
    decreases j
  {
    if i < j - 1 {
      Pow2StrictlyIncreasing(i, j - 1);
    }
  }

  /** Pow2 is injective on exponents and order-reflecting. */
  lemma Pow2Ordered(i: nat, j: nat)
    ensures Pow2(i) < Pow2(j) <==> i < j
  {
    if i < j {
      Pow2StrictlyIncreasing(i, j);
    } else if j < i {
      Pow2StrictlyIncreasing(j, i);
    }
  }

  /** The kernel's fls: the 1-based position of the most significant set bit, 0 for 0. */
  function Fls(x: nat): nat
  {
    if x == 0 then 0 else 1 + Fls(x / 2)
  }

  /** fls(x) is the number of binary digits of x. */
  lemma {:induction false} FlsBounds(x: nat)
    ensures x < Pow2(Fls(x))
    ensures x >= 1 ==> Fls(x) >= 1 && Pow2(Fls(x) - 1) <= x
  {
    if x > 0 {
      FlsBounds(x / 2);
    }
  }

  /** roundup_pow_of_two(n) is 1 << fls(n - 1): the least power of two that is >= n. */
  function RoundUpPowOfTwo(n: nat): (r: nat)
    requires n >= 1
    ensures exists k: nat :: r == Pow2(k)
    ensures n <= r < 2 * n
  {
    FlsBounds(n - 1);
    Pow2(Fls(n - 1))
  }

  /** ilog2(n) is fls(n) - 1: the exponent of the greatest power of two that is <= n. */
  function ILog2(n: nat): (k: nat)
    requires n >= 1
    ensures Pow2(k) <= n < Pow2(k + 1)
  {
    FlsBounds(n);
    Fls(n) - 1
  }

  /** The prescale rt2880_spi_baudrate_get computes for a requested speed. The source needs
      speed > 0 (it divides by it) and clk > speed (otherwise ilog2(0) is evaluated).
      The result is the unique p with speed * 2^p < clk <= speed * 2^(p+1): the divisor
      2^(p+1) is the smallest power of two that brings the bus clock to at most speed. */
  function Prescale(clk: nat, speed: nat): (p: nat)
    requires 0 < speed < clk
    ensures speed * Pow2(p) < clk <= speed * Pow2(p + 1)
  {
    PrescaleBracket(clk, speed);
    ILog2(RoundUpPowOfTwo(DivRoundUp(clk, speed)) / 2)
  }

  /** The divisor is optimal: 2^(p+1) is the least power of two that is at least
      ceil(clk / speed), the ideal ratio. A smaller divisor 2^p would give a bus clock
      above the requested speed. */
  lemma PrescaleDivisorOptimal(clk: nat, speed: nat)
    requires 0 < speed < clk
    ensures DivRoundUp(clk, speed) <= Pow2(Prescale(clk, speed) + 1)
    ensures Pow2(Prescale(clk, speed)) < DivRoundUp(clk, speed)
  {
    var p := Prescale(clk, speed);
    var q := DivRoundUp(clk, speed);
    // speed * (q - 1) < clk <= speed * 2^(p+1)
    MulCancel(speed, q - 1, Pow2(p + 1));
    // speed * 2^p < clk <= speed * q
    MulCancel(speed, Pow2(p), q);
  }

  /** A positive factor cancels from a strict inequality between products. */
  lemma MulCancel(a: nat, b: nat, c: nat)
    requires a * b < a * c
    ensures b < c
  {
    if c <= b {
      MulMonotone(a, c, b);
    }
  }

  /** ilog2 of a power of two is its exponent. */
  lemma ILog2Pow2(k: nat)
    ensures ILog2(Pow2(k)) == k
  {
    var p := ILog2(Pow2(k));
    if p < k {
      if p + 1 < k {
        Pow2StrictlyIncreasing(p + 1, k);
      }
      assert false;
    } else if k < p {
      Pow2StrictlyIncreasing(k, p);
      assert false;
    }
  }

  /** The rounded-up rate is 2^k with k >= 1, and 2^(k-1) < rate <= 2^k. */
  lemma RoundedRate(rate: nat)
    requires rate >= 2
    ensures var k := Fls(rate - 1);
      && k >= 1
      && RoundUpPowOfTwo(rate) == Pow2(k)
      && RoundUpPowOfTwo(rate) / 2 == Pow2(k - 1)
      && Pow2(k - 1) <= rate - 1
      && rate <= Pow2(k)
  {
    FlsBounds(rate - 1);
  }

  /** The arithmetic behind Prescale's bracket, with the rate and its rounding named. */
  lemma PrescaleBracket(clk: nat, speed: nat)
    requires 0 < speed < clk
    ensures RoundUpPowOfTwo(DivRoundUp(clk, speed)) >= 2
    ensures var p := ILog2(RoundUpPowOfTwo(DivRoundUp(clk, speed)) / 2);
      speed * Pow2(p) < clk <= speed * Pow2(p + 1)
  {
    var rate := DivRoundUp(clk, speed);
    assert rate >= 2 by {
      if rate <= 1 {
        MulMonotone(speed, rate, 1);
      }
    }
    RoundedRate(rate);
    var k := Fls(rate - 1);
    ILog2Pow2(k - 1);
    MulMonotone(speed, rate, Pow2(k));
    MulMonotone(speed, Pow2(k - 1), rate - 1);
  }

  lemma MulMonotone(a: nat, b: nat, c: nat)
    requires b <= c
    ensures a * b <= a * c
  {
  }

  /** The bracketing of Prescale determines it: no other exponent satisfies it. */
  lemma PrescaleUnique(clk: nat, speed: nat, k: nat)
    requires 0 < speed < clk
    requires speed * Pow2(k) < clk <= speed * Pow2(k + 1)
    ensures k == Prescale(clk, speed)
  {
    var p := Prescale(clk, speed);
    if k < p {
      Pow2Ordered(k + 1, p);
      if k + 1 < p {
        MulMonotone(speed, Pow2(k + 1), Pow2(p));
      }
      assert false;
    } else if p < k {
      Pow2Ordered(p + 1, k);
      if p + 1 < k {
        MulMonotone(speed, Pow2(p + 1), Pow2(k));
      }
      assert false;
    }
  }

  /** The speed window setup accepts, as written: clk/128 <= speed <= clk/2, with both
      bounds rounded down. */
  predicate SpeedInRange(clk: nat, speed: nat)
  {
    clk / 128 <= speed <= clk / 2
  }

  /** The speeds that reach the prescaler: setup's window, with the speed positive (the
      SPI core fills in a zero speed before setup and before a transfer runs). */
  predicate SpeedAccepted(clk: nat, speed: nat)
  {
    0 < speed && SpeedInRange(clk, speed)
  }

  /** The speed window for which the prescaler can be programmed: the lower bound is
      rounded up, so that clk <= 128 * speed. */
  predicate SpeedSupported(clk: nat, speed: nat)
  {
    0 < speed && DivRoundUp(clk, 128) <= speed <= clk / 2
  }

  /** Every supported speed yields a dividing prescale (0..6) whose bus clock does not
      exceed the requested speed, while the next faster divisor would; the programmed
      divisor is one of 2, 4, ..., 128. Supported speeds also pass setup's check. */
  lemma SupportedSpeedPrescale(clk: nat, speed: nat)
    requires SpeedSupported(clk, speed)
    ensures SpeedInRange(clk, speed)
    ensures speed < clk
    ensures Prescale(clk, speed) <= SPICLK_DIV128
    ensures 2 <= Pow2(Prescale(clk, speed) + 1) <= 128
    ensures clk / Pow2(Prescale(clk, speed) + 1) <= speed
  {
    assert clk / 128 <= speed by {
      DivBound(clk, speed, 128);
    }
    var p := Prescale(clk, speed);
    PrescaleBelowDisable(clk, speed);
    assert Pow2(p + 1) <= 128 by {
      if p + 1 < 7 {
        Pow2StrictlyIncreasing(p + 1, 7);
      }
    }
    assert Pow2(p + 1) >= 2 by {
      Pow2StrictlyIncreasing(0, p + 1);
    }
    DivBound(clk, speed, Pow2(p + 1));
  }

  /** With clk <= 128 * speed the prescale cannot reach 7, since speed * 2^7 >= clk. */
  lemma PrescaleBelowDisable(clk: nat, speed: nat)
    requires 0 < speed < clk <= 128 * speed
    ensures Prescale(clk, speed) <= SPICLK_DIV128
  {
    var p := Prescale(clk, speed);
    if p > 6 {
      assert Pow2(7) == 128;
      Pow2Ordered(7, p);
      MulMonotone(speed, Pow2(7), Pow2(p));
      assert false;
    }
  }

  /** Every accepted speed is below the clock and gets a prescale that fits the 3-bit
      field; the prescale divides the clock (at most DIV128) exactly when the speed is
      in the rounded-up window. */
  lemma AcceptedSpeedPrescale(clk: nat, speed: nat)
    requires SpeedAccepted(clk, speed)
    ensures speed < clk
    ensures Prescale(clk, speed) <= SPICLK_DISABLE
    ensures Prescale(clk, speed) <= SPICLK_DIV128 <==> SpeedSupported(clk, speed)
  {
    AcceptedBelowDisable(clk, speed);
    if SpeedSupported(clk, speed) {
      SupportedSpeedPrescale(clk, speed);
    } else {
      SetupAdmitsDisabledPrescale(clk, speed);
    }
  }

  /** An accepted speed is below the clock, and at least clk/256, so the prescale is at
      most 7. */
  lemma AcceptedBelowDisable(clk: nat, speed: nat)
    requires SpeedAccepted(clk, speed)
    ensures speed < clk
    ensures Prescale(clk, speed) <= SPICLK_DISABLE
  {
    var p := Prescale(clk, speed);
    assert clk <= speed * 256 by {
      // clk < 128 * (clk / 128 + 1) <= 128 * (speed + 1) <= 256 * speed
      MulMonotone(128, clk / 128, speed);
    }
    if p > SPICLK_DISABLE {
      assert Pow2(8) == 256;
      Pow2Ordered(8, p);
      MulMonotone(speed, Pow2(8), Pow2(p));
      assert false;
    }
  }

  /** A prescale value as the 3-bit CFG field. */
  function FieldBits(p: nat): (f: u32)
    requires p <= SPICLK_DISABLE
    ensures f as int == p
  {
    if p == 0 then 0 else if p == 1 then 1 else if p == 2 then 2 else if p == 3 then 3
    else if p == 4 then 4 else if p == 5 then 5 else if p == 6 then 6 else 7
  }

  /** The prescale of an accepted speed as the 3-bit CFG field value, as
      prepare_message and the speed change of transfer_one OR it into CFG. It divides
      the clock (0..6) exactly for the supported speeds; the one accepted speed outside
      them gets 7, the value that disables the clock. */
  function PrescaleField(clk: nat, speed: nat): (f: u32)
    requires SpeedAccepted(clk, speed)
    ensures f as int == Prescale(clk, speed) && f <= SPICLK_DISABLE as u32
    ensures f <= SPICLK_DIV128 as u32 <==> SpeedSupported(clk, speed)
  {
    AcceptedSpeedPrescale(clk, speed);
    FieldBits(Prescale(clk, speed))
  }

  lemma DivBound(n: nat, s: nat, d: nat)
    requires d > 0 && n <= s * d
    ensures n / d <= s
  {
  }

  /** Setup's rounded-down lower bound lets exactly one unsupported speed through,
      speed == clk/128 when clk is not a multiple of 128, and for that speed the
      prescaler comes out as 7, the value that disables the SPI clock. */
  lemma SetupAdmitsDisabledPrescale(clk: nat, speed: nat)
    requires SpeedAccepted(clk, speed) && !SpeedSupported(clk, speed)
    ensures speed == clk / 128 && clk % 128 != 0
    ensures Prescale(clk, speed) == SPICLK_DISABLE
  {
    assert Pow2(7) == 128 && Pow2(8) == 256;
    PrescaleUnique(clk, speed, 7);
  }

  /** A concrete instance: a 133333333 Hz reference clock and a device limited to
      clk/128 = 1041666 Hz. */
  lemma DisabledPrescaleExample()
    ensures SpeedInRange(133333333, 1041666)
    ensures Prescale(133333333, 1041666) == SPICLK_DISABLE
  {
    assert Pow2(7) == 128 && Pow2(8) == 256;
    PrescaleUnique(133333333, 1041666, 7);
  }
}

=== FILE: rt2880_regs.dfy ===
/** Register layout of the RT2880 SPI controller and the pure bit-field logic the driver
    applies to it: the prescale field of CFG, the clock-mode and bit-order bits of CFG,
    the chip-select polarity and enable bits of the arbiter register, and the upgrade
    of SPI mode 0 to mode 3. */
module Rt2880Regs {
  import opened KernelTypes

  // Register offsets inside one controller's window.
  const CFG: nat := 0x10
  const CTL: nat := 0x14
  const DATA: nat := 0x20
  /** Distance between the windows of controller 0 and controller 1. */
  const DEV_OFFSET: nat := 0x40
  const ARBITER: nat := 0xF0

  const STAT_BUSY: u32 := 0x1

  const CFG_MSBFIRST: u32 := 0x100
  const CFG_SPICLKPOL: u32 := 0x40
  const CFG_RXCLKEDGE_FALLING: u32 := 0x20
  const CFG_TXCLKEDGE_FALLING: u32 := 0x10
  const CFG_SPICLK_PRESCALE_MASK: u32 := 0x7
  /** The clock-mode bits of CFG. */
  const CFG_CLOCK_BITS: u32 := 0x70
  /** Every CFG bit prepare_message clears before setting the new configuration. */
  const CFG_MODE_MASK: u32 := 0x177

  const CTL_STARTWR: u32 := 0x4
  const CTL_STARTRD: u32 := 0x2
  const CTL_SPIENA: u32 := 0x1

  const ARB_EN: u32 := 0x8000_0000
  const SPI1_POR: u32 := 0x2
  const SPI0_POR: u32 := 0x1

  // SPI mode flags of a device (the kernel's SPI_CPHA, SPI_CPOL, SPI_CS_HIGH, SPI_LSB_FIRST).
  const SPI_CPHA: u16 := 0x1
  const SPI_CPOL: u16 := 0x2
  const SPI_CS_HIGH: u16 := 0x4
  const SPI_LSB_FIRST: u16 := 0x8
  const SPI_MODE_3: u16 := 0x3

  /** The controller supports 8-bit words only: SPI_BPW_MASK(8) == BIT(7). */
  const BPW_MASK: u32 := 0x80

  /** x with the bits of mask set. */
  function SetMask(x: u32, mask: u32): u32
  {
    x | mask
  }

  /** x with the bits of mask cleared. */
  function ClearMask(x: u32, mask: u32): u32
  {
    x & !mask
  }

  /** One register write, as the controller sees it. */
  datatype RegWrite = RegWrite(off: nat, val: u32)

  /** The register window as the driver sees it: the values CFG, CTL and the arbiter
      register read back (each reads the value last written to it), and every write so
      far, in order. STAT and DATA reads are not stored: they come from the hardware. */
  datatype Io = Io(cfg: u32, ctl: u32, arb: u32, trace: seq<RegWrite>)
  {
    /** rt2880_spi_write to CFG. */
    function WriteCfg(val: u32): Io
    {
      this.(cfg := val, trace := trace + [RegWrite(CFG, val)])
    }

    /** rt2880_spi_write to DATA. */
    function WriteData(val: u32): Io
    {
      this.(trace := trace + [RegWrite(DATA, val)])
    }

    /** rt2880_spi_write to the arbiter register, found at `off` in this window. */
    function WriteArbiter(off: nat, val: u32): Io
    {
      this.(arb := val, trace := trace + [RegWrite(off, val)])
    }

    /** rt2880_spi_setbits on CTL: read, OR in the mask, write back. */
    function SetCtlBits(mask: u32): Io
    {
      var val := SetMask(ctl, mask);
      this.(ctl := val, trace := trace + [RegWrite(CTL, val)])
    }

    /** rt2880_spi_clrbits on CTL: read, clear the mask, write back. */
    function ClrCtlBits(mask: u32): Io
    {
      var val := ClearMask(ctl, mask);
      this.(ctl := val, trace := trace + [RegWrite(CTL, val)])
    }
  }

  /** After setting the bits of a mask they read as set. */
  lemma SetMaskSets(x: u32, mask: u32)
    ensures SetMask(x, mask) & mask == mask
  {
  }

  /** Setting the bits of a mask keeps every other bit. */
  lemma SetMaskKeeps(x: u32, mask: u32)
    ensures ClearMask(SetMask(x, mask), mask) == ClearMask(x, mask)
  {
    assert (x | mask) & !mask == x & !mask;
  }

  /** After clearing the bits of a mask they read as clear. */
  lemma ClearMaskClears(x: u32, mask: u32)
    ensures ClearMask(x, mask) & mask == 0
  {
  }

  /** Clearing the bits of a mask keeps every other bit. */
  lemma ClearMaskKeeps(x: u32, mask: u32)
    ensures ClearMask(ClearMask(x, mask), mask) == ClearMask(x, mask)
  {
  }

  /** Setting bits that are already set changes nothing. */
  lemma SetBitsTwice(x: u32, mask: u32)
    ensures SetMask(SetMask(x, mask), mask) == SetMask(x, mask)
  {
  }

  /** Whether a STAT value reports a transfer in progress. */
  predicate Busy(stat: u32)
  {
    stat & STAT_BUSY != 0
  }

  /** cfg' is cfg with its prescale field set to `prescale` and every other bit kept. */
  predicate PrescaleProgrammed(cfg: u32, cfg': u32, prescale: u32)
  {
    && cfg' & CFG_SPICLK_PRESCALE_MASK == prescale
    && ClearMask(cfg', CFG_SPICLK_PRESCALE_MASK) == ClearMask(cfg, CFG_SPICLK_PRESCALE_MASK)
  }

  /** Replaces the prescale field of a CFG value, as the speed-change branch of
      transfer_one does; every other bit is kept. */
  function CfgWithPrescale(cfg: u32, prescale: u32): (r: u32)
    requires prescale <= 7
    ensures PrescaleProgrammed(cfg, r, prescale)
  {
    (cfg & !CFG_SPICLK_PRESCALE_MASK) | prescale
  }

  /** The CFG clock-edge and polarity bits for the device's CPOL/CPHA setting: the
      clock idles high exactly for CPOL, data is sampled on the falling edge when CPOL
      and CPHA differ, and shifted out on the falling edge when they agree. */
  function ClockModeBits(mode: u16): (r: u32)
    ensures r & !CFG_CLOCK_BITS == 0
    ensures (r & CFG_SPICLKPOL != 0) <==> (mode & SPI_CPOL != 0)
    ensures (r & CFG_RXCLKEDGE_FALLING != 0) <==> ((mode & SPI_CPOL != 0) != (mode & SPI_CPHA != 0))
    ensures (r & CFG_TXCLKEDGE_FALLING != 0) <==> ((mode & SPI_CPOL != 0) == (mode & SPI_CPHA != 0))
  {
    match mode & (SPI_CPOL | SPI_CPHA)
    case 0 => CFG_TXCLKEDGE_FALLING
    case 1 => CFG_RXCLKEDGE_FALLING
    case 2 => CFG_SPICLKPOL | CFG_RXCLKEDGE_FALLING
    case _ => CFG_SPICLKPOL | CFG_TXCLKEDGE_FALLING
  }

  /** Reads CPOL/CPHA back from CFG: CPOL is the polarity bit, and CPHA is set exactly
      when the receive edge differs from the polarity. */
  function DecodeClockMode(cfg: u32): u16
  {
    var pol := cfg & CFG_SPICLKPOL != 0;
    var rx := cfg & CFG_RXCLKEDGE_FALLING != 0;
    (if pol then SPI_CPOL else 0) | (if pol != rx then SPI_CPHA else 0)
  }

  /** Each of the four SPI modes gets its own CFG pattern: decoding recovers the mode. */
  lemma ClockModeRoundTrip(mode: u16)
    ensures DecodeClockMode(ClockModeBits(mode)) == mode & (SPI_CPOL | SPI_CPHA)
  {
  }

  /** cfg' configures the bus for a device: MSBFIRST unless the device is LSB-first, the
      clock polarity and edges of its SPI mode, the given prescale, and every bit outside
      those fields as in cfg. */
  predicate ModeProgrammed(cfg: u32, cfg': u32, mode: u16, prescale: u32)
  {
    && ClearMask(cfg', CFG_MODE_MASK) == ClearMask(cfg, CFG_MODE_MASK)
    && ((cfg' & CFG_MSBFIRST != 0) <==> (mode & SPI_LSB_FIRST == 0))
    && cfg' & CFG_CLOCK_BITS == ClockModeBits(mode)
    && DecodeClockMode(cfg') == mode & (SPI_CPOL | SPI_CPHA)
    && cfg' & CFG_SPICLK_PRESCALE_MASK == prescale
  }

  /** The CFG value prepare_message writes: the bit-order, clock-mode and prescale
      fields are rebuilt from the device, every bit outside them is kept. */
  function PrepareCfg(cfg: u32, mode: u16, prescale: u32): (r: u32)
    requires prescale <= 7
    ensures r & CFG_CLOCK_BITS == ClockModeBits(mode)
    ensures ModeProgrammed(cfg, r, mode, prescale)
  {
    var cleared := cfg & !CFG_MODE_MASK;
    var msb := if mode & SPI_LSB_FIRST == 0 then CFG_MSBFIRST else 0;
    ClockModeRoundTrip(mode);
    cleared | msb | ClockModeBits(mode) | prescale
  }

  /** Offset of the arbiter register in a controller's window. Both controllers reach
      the same physical register: controller 1's window starts DEV_OFFSET later. */
  function ArbiterOffset(busNum: int): (off: nat)
    ensures off + (if busNum == 1 then DEV_OFFSET else 0) == ARBITER
  {
    if busNum == 1 then ARBITER - DEV_OFFSET else ARBITER
  }

  /** The chip-select polarity bit a bus owns in the arbiter register. */
  function PolarityBit(busNum: int): u32
  {
    if busNum == 1 then SPI1_POR else SPI0_POR
  }

  /** The bits setup may change in the arbiter register for a bus. */
  function ArbiterBits(busNum: int): u32
  {
    if busNum == 1 then SPI1_POR | ARB_EN else SPI0_POR
  }

  /** setup's read-modify-write of the arbiter register: the bus's polarity bit becomes
      csHigh, bus 1 also sets ARB_EN, and nothing else changes. */
  function ArbiterUpdate(arb: u32, busNum: int, csHigh: bool): (r: u32)
    ensures (r & PolarityBit(busNum) != 0) <==> csHigh
    ensures busNum == 1 ==> r & ARB_EN != 0
    ensures ClearMask(r, ArbiterBits(busNum)) == ClearMask(arb, ArbiterBits(busNum))
  {
    var reg :=
      if csHigh then arb | PolarityBit(busNum)
      else arb & !PolarityBit(busNum);
    if busNum == 1 then reg | ARB_EN else reg
  }

  /** The three arbiter bits the two controllers' setups own between them. */
  const ARBITER_SHARED_BITS: u32 := SPI0_POR | SPI1_POR | ARB_EN

  /** Controller 0's update leaves every bit outside the shared ones alone. */
  lemma ArbiterUpdateKeeps0(arb: u32, csHigh: bool)
    ensures ClearMask(ArbiterUpdate(arb, 0, csHigh), ARBITER_SHARED_BITS) == ClearMask(arb, ARBITER_SHARED_BITS)
  {
  }

  /** Controller 1's update leaves every bit outside the shared ones alone. */
  lemma ArbiterUpdateKeeps1(arb: u32, csHigh: bool)
    ensures ClearMask(ArbiterUpdate(arb, 1, csHigh), ARBITER_SHARED_BITS) == ClearMask(arb, ARBITER_SHARED_BITS)
  {
  }

  /** Bringing up controllers 0 and 1 in either order gives the same arbiter value. */
  lemma ArbiterBusesCommute(arb: u32, csHigh0: bool, csHigh1: bool)
    ensures ArbiterUpdate(ArbiterUpdate(arb, 0, csHigh0), 1, csHigh1)
         == ArbiterUpdate(ArbiterUpdate(arb, 1, csHigh1), 0, csHigh0)
  {
    if csHigh0 {
      if csHigh1 { } else { }
    } else {
      if csHigh1 { } else { }
    }
  }

  /** After both controllers are set up, each polarity bit is its own controller's
      CS_HIGH setting, ARB_EN is set, and every other bit is as before. */
  lemma ArbiterBusesIndependent(arb: u32, csHigh0: bool, csHigh1: bool)
    ensures var r := ArbiterUpdate(ArbiterUpdate(arb, 0, csHigh0), 1, csHigh1);
      && (r & SPI0_POR != 0 <==> csHigh0)
      && (r & SPI1_POR != 0 <==> csHigh1)
      && r & ARB_EN != 0
      && ClearMask(r, ARBITER_SHARED_BITS) == ClearMask(arb, ARBITER_SHARED_BITS)
  {
    ArbiterUpdateKeeps0(arb, csHigh0);
    ArbiterUpdateKeeps1(ArbiterUpdate(arb, 0, csHigh0), csHigh1);
    if csHigh0 {
      if csHigh1 { } else { }
    } else {
      if csHigh1 { } else { }
    }
  }

  /** setup's mode-0 quirk: a device with neither CPOL nor CPHA is run in mode 3 by
      OR-ing both in; other modes and all other flags are left alone. */
  function ForceMode3(mode: u16): (r: u16)
    ensures r & (SPI_CPOL | SPI_CPHA) != 0
    ensures mode & (SPI_CPOL | SPI_CPHA) == 0 ==> r & (SPI_CPOL | SPI_CPHA) == SPI_MODE_3
    ensures mode & (SPI_CPOL | SPI_CPHA) != 0 ==> r == mode
    ensures r & !(SPI_CPOL | SPI_CPHA) == mode & !(SPI_CPOL | SPI_CPHA)
  {
    if mode & (SPI_CPOL | SPI_CPHA) == 0 then mode | SPI_MODE_3 else mode
  }

  /** setup's word-size test, BIT(bits_per_word - 1) against the controller's mask. A
      shift outside 0..31 is undefined in C and is modelled as a rejection. */
  predicate BitsPerWordSupported(bitsPerWord: nat)
  {
    1 <= bitsPerWord <= 32 && BPW_MASK & ((1 as u32) << (bitsPerWord - 1)) != 0
  }

  /** Only 8-bit words pass. */
  lemma BitsPerWordOnlyEight(bitsPerWord: nat)
    ensures BitsPerWordSupported(bitsPerWord) <==> bitsPerWord == 8
  {
    if 1 <= bitsPerWord <= 32 && bitsPerWord != 8 {
      var s := (bitsPerWord - 1) as bv5;
      assert (1 as u32) << (bitsPerWord - 1) == (1 as u32) << s;
    }
  }
}

=== FILE: rt2880_spi.dfy ===
/** The RT2880 SPI controller driver: chip-select control, per-device setup, per-message
    configuration, the bounded busy-poll, and the byte-at-a-time half-duplex transfer.
    Every operation takes the controller state and returns the new one; the register
    writes it performs are appended to the state's write trace. STAT and DATA reads come
    from oracles supplied by the caller. */
module Rt2880Spi {
  import opened KernelTypes
  import opened Rt2880Clock
  import opened Rt2880Regs

  /** The controller state: its register window, the reference clock rate, the bus
      number, the speed and mode last programmed, and the busy-poll budget per byte. */
  datatype Master = Master(io: Io, clk: nat, busNum: int, speed: nat, mode: u16, waitLoops: nat)

  /** A device on the bus, as setup and prepare_message see it. */
  datatype SpiDevice = SpiDevice(maxSpeedHz: nat, bitsPerWord: nat, mode: u16)

  /** rt2880_spi_set_cs: SPIENA follows the requested level; one write to CTL. */
  function SetCs(m: Master, enable: bool): (m': Master)
    ensures m'.io == m.io.(ctl := m'.io.ctl, trace := m.io.trace + [RegWrite(CTL, m'.io.ctl)])
    ensures (m'.io.ctl & CTL_SPIENA != 0) <==> enable
    ensures ClearMask(m'.io.ctl, CTL_SPIENA) == ClearMask(m.io.ctl, CTL_SPIENA)
    ensures m' == m.(io := m'.io)
  {
    if enable then
      SetMaskSets(m.io.ctl, CTL_SPIENA);
      SetMaskKeeps(m.io.ctl, CTL_SPIENA);
      m.(io := m.io.SetCtlBits(CTL_SPIENA))
    else
      ClearMaskClears(m.io.ctl, CTL_SPIENA);
      ClearMaskKeeps(m.io.ctl, CTL_SPIENA);
      m.(io := m.io.ClrCtlBits(CTL_SPIENA))
  }

  /** spi_set_cs without a chip-select GPIO: selecting drives the line to the device's
      active level, so SPIENA ends up set exactly when "selected" and "active high"
      agree. */
  function SpiSetCs(m: Master, mode: u16, enable: bool): (m': Master)
    ensures m' == SetCs(m, enable == (mode & SPI_CS_HIGH != 0))
  {
    var level := if mode & SPI_CS_HIGH != 0 then !enable else enable;
    SetCs(m, !level)
  }

  /** The chip-polarity part of setup: the arbiter register is read, this bus's bits
      are updated, and the new value is written back only if it differs. */
  function ProgramArbiter(m: Master, csHigh: bool): (m': Master)
    ensures var arb' := ArbiterUpdate(m.io.arb, m.busNum, csHigh);
      && m'.io.arb == arb'
      && m'.io.cfg == m.io.cfg && m'.io.ctl == m.io.ctl
      && m'.io.trace == m.io.trace + (if arb' != m.io.arb then [RegWrite(ArbiterOffset(m.busNum), arb')] else [])
      && m' == m.(io := m'.io)
  {
    var reg := ArbiterUpdate(m.io.arb, m.busNum, csHigh);
    if reg != m.io.arb then m.(io := m.io.WriteArbiter(ArbiterOffset(m.busNum), reg)) else m
  }

  /** What setup returns: the controller, the device (whose mode it may upgrade) and the
      return code. */
  datatype SetupOutcome = SetupOutcome(master: Master, dev: SpiDevice, ret: int)

  /** rt2880_spi_setup. A speed outside [clk/128, clk/2] or a word size other than 8
      bits is refused with -EINVAL before any register is touched. Otherwise mode 0 is
      upgraded to mode 3, the arbiter register is rewritten (only if its value changes)
      so that this bus's polarity bit is the device's CS_HIGH flag, and the device is
      deselected: SPIENA ends up set exactly when chip select is active low. */
  function Setup(m: Master, dev: SpiDevice): (r: SetupOutcome)
    ensures r.ret == 0 || r.ret == -EINVAL
    ensures r.ret == -EINVAL <==>
      !SpeedInRange(m.clk, dev.maxSpeedHz) || !BitsPerWordSupported(dev.bitsPerWord)
    ensures r.ret != 0 ==> r.master == m && r.dev == dev
    ensures r.ret == 0 ==> r.dev == dev.(mode := ForceMode3(dev.mode))
    ensures r.ret == 0 ==>
      var arb' := ArbiterUpdate(m.io.arb, m.busNum, dev.mode & SPI_CS_HIGH != 0);
      var arbWrites := if arb' != m.io.arb then [RegWrite(ArbiterOffset(m.busNum), arb')] else [];
      var io' := r.master.io;
      && io'.cfg == m.io.cfg
      && io'.arb == arb'
      && io'.trace == m.io.trace + arbWrites + [RegWrite(CTL, io'.ctl)]
      && ((io'.ctl & CTL_SPIENA != 0) <==> (dev.mode & SPI_CS_HIGH == 0))
      && ClearMask(io'.ctl, CTL_SPIENA) == ClearMask(m.io.ctl, CTL_SPIENA)
      && r.master == m.(io := io')
  {
    if dev.maxSpeedHz > m.clk / 2 || dev.maxSpeedHz < m.clk / 128 then
      SetupOutcome(m, dev, -EINVAL)
    else if !BitsPerWordSupported(dev.bitsPerWord) then
      SetupOutcome(m, dev, -EINVAL)
    else
      var mode := ForceMode3(dev.mode);
      var csHigh := mode & SPI_CS_HIGH != 0;
      assert csHigh == (dev.mode & SPI_CS_HIGH != 0);
      var m1 := ProgramArbiter(m, csHigh);
      SetupOutcome(SpiSetCs(m1, mode, false), dev.(mode := mode), 0)
  }

  /** A mode-0 device that passed setup is configured with exactly mode 3's CFG
      pattern (idle-high clock, transmit on the falling edge). */
  lemma SetupRunsMode0AsMode3(m: Master, dev: SpiDevice)
    requires dev.mode & (SPI_CPOL | SPI_CPHA) == 0
    requires Setup(m, dev).ret == 0
    ensures ClockModeBits(Setup(m, dev).dev.mode) == ClockModeBits(SPI_MODE_3)
    ensures ClockModeBits(Setup(m, dev).dev.mode) == CFG_SPICLKPOL | CFG_TXCLKEDGE_FALLING
  {
    var mode := Setup(m, dev).dev.mode;
    assert mode & (SPI_CPOL | SPI_CPHA) == SPI_MODE_3;
  }

  /** rt2880_spi_prepare_message. Nothing happens when the device's mode and speed are
      the ones last programmed. Otherwise CFG is rewritten once: MSBFIRST unless the
      device is LSB-first, the clock bits of its SPI mode, and the prescale for its
      speed; the other CFG bits are kept, and mode and speed are cached. */
  function PrepareMessage(m: Master, dev: SpiDevice): (m': Master)
    requires (m.mode == dev.mode && m.speed == dev.maxSpeedHz) || SpeedAccepted(m.clk, dev.maxSpeedHz)
    ensures m.mode == dev.mode && m.speed == dev.maxSpeedHz ==> m' == m
    ensures !(m.mode == dev.mode && m.speed == dev.maxSpeedHz) ==>
      var cfg' := m'.io.cfg;
      && m'.io == m.io.(cfg := cfg', trace := m.io.trace + [RegWrite(CFG, cfg')])
      && ModeProgrammed(m.io.cfg, cfg', dev.mode, PrescaleField(m.clk, dev.maxSpeedHz))
      && ((cfg' & CFG_SPICLK_PRESCALE_MASK == SPICLK_DISABLE as u32) <==> !SpeedSupported(m.clk, dev.maxSpeedHz))
      && m' == m.(io := m'.io, mode := dev.mode, speed := dev.maxSpeedHz)
  {
    if m.mode == dev.mode && m.speed == dev.maxSpeedHz then m
    else
      var reg := PrepareCfg(m.io.cfg, dev.mode, PrescaleField(m.clk, dev.maxSpeedHz));
      m.(io := m.io.WriteCfg(reg), mode := dev.mode, speed := dev.maxSpeedHz)
  }

  /** The clock-disabling prescale reaches the hardware: a device whose speed setup
      accepts but that lies below the rounded-up window gets prescale 7 written into
      CFG by the next prepare_message, and every other accepted speed a dividing one. */
  lemma SetupThenPrepareDisablesClock(m: Master, dev: SpiDevice)
    requires dev.maxSpeedHz > 0
    requires Setup(m, dev).ret == 0
    requires !(m.mode == Setup(m, dev).dev.mode && m.speed == dev.maxSpeedHz)
    ensures var s := Setup(m, dev);
      var field := PrepareMessage(s.master, s.dev).io.cfg & CFG_SPICLK_PRESCALE_MASK;
      && (field == SPICLK_DISABLE as u32 <==> !SpeedSupported(m.clk, dev.maxSpeedHz))
      && (!SpeedSupported(m.clk, dev.maxSpeedHz) ==> dev.maxSpeedHz == m.clk / 128 && m.clk % 128 != 0)
  {
    var s := Setup(m, dev);
    assert s.master.speed == m.speed && s.master.mode == m.mode && s.dev.maxSpeedHz == dev.maxSpeedHz;
    if !SpeedSupported(m.clk, dev.maxSpeedHz) {
      SetupAdmitsDisabledPrescale(m.clk, dev.maxSpeedHz);
    }
  }

  /** The concrete case: a 133333333 Hz reference clock and a mode-0 device limited to
      clk/128 = 1041666 Hz pass setup, and prepare_message then stops the SPI clock. */
  lemma DisabledClockExample(io: Io)
    ensures var s := Setup(Master(io, 133333333, 0, 0, 0, 1), SpiDevice(1041666, 8, 0));
      && s.ret == 0
      && PrepareMessage(s.master, s.dev).io.cfg & CFG_SPICLK_PRESCALE_MASK == SPICLK_DISABLE as u32
  {
    var m := Master(io, 133333333, 0, 0, 0, 1);
    var dev := SpiDevice(1041666, 8, 0);
    assert BitsPerWordSupported(8);
    SetupThenPrepareDisablesClock(m, dev);
  }

  /** The speed-change branch at the top of transfer_one: when the transfer's speed
      differs from the one last programmed, only the prescale bits of CFG are rewritten
      and the speed is cached, so repeating it with the same speed changes nothing. */
  function SpeedUpdate(m: Master, speed: nat): (m': Master)
    requires m.speed == speed || SpeedAccepted(m.clk, speed)
    ensures m'.speed == speed
    ensures m.speed == speed ==> m' == m
    ensures m.speed != speed ==>
      var cfg' := m'.io.cfg;
      && m'.io == m.io.(cfg := cfg', trace := m.io.trace + [RegWrite(CFG, cfg')])
      && PrescaleProgrammed(m.io.cfg, cfg', PrescaleField(m.clk, speed))
      && ((cfg' & CFG_SPICLK_PRESCALE_MASK == SPICLK_DISABLE as u32) <==> !SpeedSupported(m.clk, speed))
      && m' == m.(io := m'.io, speed := speed)
  {
    if m.speed == speed then m
    else
      var reg := CfgWithPrescale(m.io.cfg, PrescaleField(m.clk, speed));
      m.(io := m.io.WriteCfg(reg), speed := speed)
  }

  /** Whether one of the first `budget` STAT reads finds the controller idle. */
  ghost predicate Idle(stat: nat -> u32, budget: nat)
  {
    exists j :: 0 <= j < budget && !Busy(stat(j))
  }

  /** rt2880_spi_wait_ready: polls STAT until BUSY clears, at most waitLoops * len
      times. `stat(j)` is the value of the j-th read. Returns 0 exactly when one of the
      reads within the budget found the controller idle, -ETIMEDOUT otherwise, and the
      number of reads made. */
  method WaitReady(waitLoops: nat, len: int, stat: nat -> u32) returns (err: int, polls: nat)
    requires waitLoops * len >= 1
    ensures 1 <= polls <= waitLoops * len
    ensures forall j :: 0 <= j < polls - 1 ==> Busy(stat(j))
    ensures err == 0 <==> Idle(stat, waitLoops * len)
    ensures err == 0 ==> !Busy(stat(polls - 1))
    ensures err != 0 ==> err == -ETIMEDOUT && polls == waitLoops * len
  {
    var loop: int := waitLoops * len;
    polls := 0;
    while true
      invariant 1 <= loop <= waitLoops * len
      invariant polls == waitLoops * len - loop
      invariant forall j :: 0 <= j < polls ==> Busy(stat(j))
      decreases loop
    {
      var busy := Busy(stat(polls));
      polls := polls + 1;
      if !busy {
        break;
      }
      loop := loop - 1;
      if loop == 0 {
        break;
      }
    }
    if loop != 0 {
      err := 0;
    } else {
      err := -ETIMEDOUT;
    }
  }

  /** One SPI transfer: an optional transmit buffer, whether bytes are to be received,
      the length in bytes and the requested speed. */
  datatype Transfer = Transfer(tx: Option<seq<u8>>, rxWanted: bool, len: nat, speedHz: nat)

  function TxLen(x: Transfer): nat
  {
    if x.tx.Some? then x.len else 0
  }

  /** The bytes a transfer transmits. */
  function TxBytes(x: Transfer): (b: seq<u8>)
    requires x.tx.Some? ==> |x.tx.value| >= x.len
    ensures |b| == TxLen(x)
  {
    if x.tx.Some? then x.tx.value[..x.len] else []
  }

  function RxLen(x: Transfer): nat
  {
    if x.rxWanted then x.len else 0
  }

  /** How a transfer ended: all bytes moved, or the wait after the given transmit or
      receive byte timed out. */
  datatype TransferStatus = Completed | TxTimedOut(at: nat) | RxTimedOut(at: nat)

  /** The register writes that clock out `bytes`: each byte is written to DATA and
      followed by the CTL write `ctlWr`, the CTL value with STARTWR set. */
  function TxTrace(bytes: seq<u8>, ctlWr: u32): seq<RegWrite>
  {
    if |bytes| == 0 then []
    else TxTrace(bytes[..|bytes| - 1], ctlWr)
         + [RegWrite(DATA, bytes[|bytes| - 1] as u32), RegWrite(CTL, ctlWr)]
  }

  lemma TxTraceSnoc(bytes: seq<u8>, b: u8, ctlWr: u32)
    ensures TxTrace(bytes + [b], ctlWr)
         == TxTrace(bytes, ctlWr) + [RegWrite(DATA, b as u32), RegWrite(CTL, ctlWr)]
  {
    assert (bytes + [b])[..|bytes|] == bytes;
  }

  /** The register writes that clock in n bytes: the CTL write `ctlRd`, the CTL value
      with STARTRD set, once per byte. */
  function RxTrace(n: nat, ctlRd: u32): seq<RegWrite>
  {
    if n == 0 then [] else RxTrace(n - 1, ctlRd) + [RegWrite(CTL, ctlRd)]
  }

  /** The values written to DATA, in order. */
  function DataWrites(t: seq<RegWrite>): seq<u32>
  {
    if |t| == 0 then []
    else DataWrites(t[..|t| - 1]) + (if t[|t| - 1].off == DATA then [t[|t| - 1].val] else [])
  }

  lemma {:induction false} DataWritesAppend(a: seq<RegWrite>, b: seq<RegWrite>)
    ensures DataWrites(a + b) == DataWrites(a) + DataWrites(b)
    decreases |b|
  {
    if |b| == 0 {
      assert a + b == a;
    } else {
      assert (a + b)[..|a + b| - 1] == a + b[..|b| - 1];
      DataWritesAppend(a, b[..|b| - 1]);
    }
  }

  /** Zero-extends bytes to register width. */
  function Widen(bytes: seq<u8>): (w: seq<u32>)
    ensures |w| == |bytes| && forall i :: 0 <= i < |bytes| ==> w[i] == bytes[i] as u32
  {
    if |bytes| == 0 then [] else Widen(bytes[..|bytes| - 1]) + [bytes[|bytes| - 1] as u32]
  }

  /** Transmitting writes exactly the bytes, in order, to DATA. */
  lemma {:induction false} TxTraceWritesBytesInOrder(bytes: seq<u8>, ctl: u32)
    ensures DataWrites(TxTrace(bytes, ctl)) == Widen(bytes)
    decreases |bytes|
  {
    if |bytes| > 0 {
      var n := |bytes| - 1;
      var pair := [RegWrite(DATA, bytes[n] as u32), RegWrite(CTL, ctl)];
      TxTraceWritesBytesInOrder(bytes[..n], ctl);
      DataWritesAppend(TxTrace(bytes[..n], ctl), pair);
      assert DataWrites(pair) == [bytes[n] as u32] by {
        assert pair[..1] == [RegWrite(DATA, bytes[n] as u32)];
        assert DataWrites(pair[..1][..0]) == [];
      }
      assert Widen(bytes) == Widen(bytes[..n]) + [bytes[n] as u32];
    }
  }

  /** Receiving writes nothing to DATA. */
  lemma {:induction false} RxTraceWritesNoData(n: nat, ctl: u32)
    ensures DataWrites(RxTrace(n, ctl)) == []
  {
    if n > 0 {
      RxTraceWritesNoData(n - 1, ctl);
      DataWritesAppend(RxTrace(n - 1, ctl), [RegWrite(CTL, ctl)]);
      assert DataWrites([RegWrite(CTL, ctl)][..0]) == [];
    }
  }

  /** The low 8 bits of a DATA read, as rt2880_spi_read returns them to the byte buffer. */
  function LowByte(v: u32): (b: u8)
    ensures b as u32 == v & 0xFF
  {
    (v & 0xFF) as u8
  }

  /** Whether the w-th wait of a transfer sees the controller idle within its budget;
      `stat(w)(j)` is the j-th STAT read of the w-th wait. */
  ghost predicate Ready(stat: nat -> nat -> u32, w: nat, budget: nat)
  {
    Idle(stat(w), budget)
  }

  /** The register writes for one transmitted byte: the byte goes to DATA, then STARTWR
      is set in CTL. */
  function SendByte(io: Io, b: u8): (io': Io)
    ensures io' == io.(ctl := SetMask(io.ctl, CTL_STARTWR),
                       trace := io.trace + [RegWrite(DATA, b as u32), RegWrite(CTL, SetMask(io.ctl, CTL_STARTWR))])
  {
    io.WriteData(b as u32).SetCtlBits(CTL_STARTWR)
  }

  /** The register write that starts receiving one byte: STARTRD set in CTL. */
  function StartRead(io: Io): (io': Io)
    ensures io' == io.(ctl := SetMask(io.ctl, CTL_STARTRD),
                       trace := io.trace + [RegWrite(CTL, SetMask(io.ctl, CTL_STARTRD))])
  {
    io.SetCtlBits(CTL_STARTRD)
  }

  /** The register window after the first k bytes of `tx` went out. */
  function TxState(io: Io, tx: seq<u8>, k: nat): Io
    requires k <= |tx|
  {
    if k == 0 then io else SendByte(TxState(io, tx, k - 1), tx[k - 1])
  }

  /** Sending k bytes leaves CFG and the arbiter alone, and sets STARTWR in CTL once a
      byte went out. */
  lemma {:induction false} TxStateRegs(io: Io, tx: seq<u8>, k: nat)
    requires k <= |tx|
    ensures TxState(io, tx, k).cfg == io.cfg && TxState(io, tx, k).arb == io.arb
    ensures TxState(io, tx, k).ctl == if k > 0 then SetMask(io.ctl, CTL_STARTWR) else io.ctl
  {
    if k > 0 {
      TxStateRegs(io, tx, k - 1);
      SetBitsTwice(io.ctl, CTL_STARTWR);
    }
  }

  /** Sending k bytes writes each of them to DATA, followed each time by the same CTL
      value. */
  lemma {:induction false} TxStateWrites(io: Io, tx: seq<u8>, k: nat)
    requires k <= |tx|
    ensures TxState(io, tx, k).trace == io.trace + TxTrace(tx[..k], SetMask(io.ctl, CTL_STARTWR))
  {
    if k > 0 {
      TxStateWrites(io, tx, k - 1);
      TxStateRegs(io, tx, k - 1);
      SetBitsTwice(io.ctl, CTL_STARTWR);
      assert tx[..k] == tx[..k - 1] + [tx[k - 1]];
      TxTraceSnoc(tx[..k - 1], tx[k - 1], SetMask(io.ctl, CTL_STARTWR));
    }
  }

  /** The register window after k bytes were started in the receive phase. */
  function RxState(io: Io, k: nat): Io
  {
    if k == 0 then io else StartRead(RxState(io, k - 1))
  }

  /** Starting k reads leaves CFG and the arbiter alone, and sets STARTRD in CTL once a
      read was started. */
  lemma {:induction false} RxStateRegs(io: Io, k: nat)
    ensures RxState(io, k).cfg == io.cfg && RxState(io, k).arb == io.arb
    ensures RxState(io, k).ctl == if k > 0 then SetMask(io.ctl, CTL_STARTRD) else io.ctl
  {
    if k > 0 {
      RxStateRegs(io, k - 1);
      SetBitsTwice(io.ctl, CTL_STARTRD);
    }
  }

  /** Starting k reads writes the CTL value with STARTRD set, k times. */
  lemma {:induction false} RxStateWrites(io: Io, k: nat)
    ensures RxState(io, k).trace == io.trace + RxTrace(k, SetMask(io.ctl, CTL_STARTRD))
  {
    if k > 0 {
      RxStateWrites(io, k - 1);
      RxStateRegs(io, k - 1);
      SetBitsTwice(io.ctl, CTL_STARTRD);
    }
  }

  /** How many bytes a loop over n bytes started before stopping at `failedAt`. */
  function Started(failedAt: Option<nat>, n: nat): (k: nat)
    ensures failedAt.Some? ==> k == failedAt.value + 1
    ensures failedAt.None? ==> k == n
  {
    if failedAt.Some? then failedAt.value + 1 else n
  }

  /** The transmit loop of transfer_one: each byte is written to DATA, STARTWR is set in
      CTL and wait number `first + i` polls STAT. Returns the index of the byte whose wait
      timed out, if any; nothing is written after it. */
  method Transmit(io: Io, tx: seq<u8>, waitLoops: nat, first: nat, stat: nat -> nat -> u32)
    returns (io': Io, failedAt: Option<nat>)
    requires waitLoops >= 1
    ensures failedAt.None? <==> forall w :: first <= w < first + |tx| ==> Ready(stat, w, waitLoops)
    ensures failedAt.Some? ==>
      && failedAt.value < |tx| && !Ready(stat, first + failedAt.value, waitLoops)
      && forall w :: first <= w < first + failedAt.value ==> Ready(stat, w, waitLoops)
    ensures Started(failedAt, |tx|) <= |tx| && io' == TxState(io, tx, Started(failedAt, |tx|))
  {
    io' := io;
    var i := 0;
    while i < |tx|
      invariant 0 <= i <= |tx|
      invariant io' == TxState(io, tx, i)
      invariant forall w :: first <= w < first + i ==> Ready(stat, w, waitLoops)
    {
      io' := SendByte(io', tx[i]);
      var err, _ := WaitReady(waitLoops, 1, stat(first + i));
      if err != 0 {
        assert !Ready(stat, first + i, waitLoops);
        return io', Some(i);
      }
      i := i + 1;
    }
    failedAt := None;
  }

  /** The receive loop of transfer_one: per byte STARTRD is set in CTL, wait number
      `first + i` polls STAT, and the low 8 bits of the i-th DATA read are kept. Returns
      the bytes received and the index of the byte whose wait timed out, if any. */
  method Receive(io: Io, n: nat, waitLoops: nat, first: nat, stat: nat -> nat -> u32, data: nat -> u32)
    returns (io': Io, failedAt: Option<nat>, rx: seq<u8>)
    requires waitLoops >= 1
    ensures failedAt.None? <==> forall w :: first <= w < first + n ==> Ready(stat, w, waitLoops)
    ensures failedAt.Some? ==>
      && failedAt.value < n && !Ready(stat, first + failedAt.value, waitLoops)
      && forall w :: first <= w < first + failedAt.value ==> Ready(stat, w, waitLoops)
    ensures |rx| == if failedAt.Some? then failedAt.value else n
    ensures forall i :: 0 <= i < |rx| ==> rx[i] == LowByte(data(i))
    ensures io' == RxState(io, Started(failedAt, n))
  {
    io' := io;
    rx := [];
    var i := 0;
    while i < n
      invariant 0 <= i <= n
      invariant io' == RxState(io, i)
      invariant |rx| == i && forall k :: 0 <= k < i ==> rx[k] == LowByte(data(k))
      invariant forall w :: first <= w < first + i ==> Ready(stat, w, waitLoops)
    {
      io' := StartRead(io');
      var err, _ := WaitReady(waitLoops, 1, stat(first + i));
      if err != 0 {
        assert !Ready(stat, first + i, waitLoops);
        return io', Some(i), rx;
      }
      rx := rx + [LowByte(data(i))];
      i := i + 1;
    }
    failedAt := None;
  }

  /** Transmit bytes that went out before a transfer ended with `status`. */
  function TxSent(status: TransferStatus, n: nat): nat
  {
    match status
    case TxTimedOut(k) => k + 1
    case _ => n
  }

  /** Receive bytes whose read was started before a transfer ended with `status`. */
  function RxStarted(status: TransferStatus, n: nat): nat
  {
    match status
    case Completed => n
    case TxTimedOut(_) => 0
    case RxTimedOut(k) => k + 1
  }

  /** The two phases of transfer_one on the register window: every transmit byte is
      written to DATA, STARTWR is set and the controller is polled; only when all of
      them went out does the receive phase start, which per byte sets STARTRD, polls,
      and keeps the low 8 bits of a DATA read. The first wait that times out ends the
      transfer. Transmit byte i is wait i, receive byte i is wait |tx| + i. */
  method MoveBytes(io: Io, tx: seq<u8>, rxLen: nat, waitLoops: nat, stat: nat -> nat -> u32, data: nat -> u32)
    returns (io': Io, status: TransferStatus, rx: seq<u8>)
    requires waitLoops >= 1
    ensures status.Completed? <==> forall w :: 0 <= w < |tx| + rxLen ==> Ready(stat, w, waitLoops)
    ensures status.TxTimedOut? ==>
      && status.at < |tx| && !Ready(stat, status.at, waitLoops)
      && forall w :: 0 <= w < status.at ==> Ready(stat, w, waitLoops)
    ensures status.RxTimedOut? ==>
      && status.at < rxLen && !Ready(stat, |tx| + status.at, waitLoops)
      && forall w :: 0 <= w < |tx| + status.at ==> Ready(stat, w, waitLoops)
    ensures TxSent(status, |tx|) <= |tx|
    ensures RxStarted(status, rxLen) > 0 ==> TxSent(status, |tx|) == |tx|
    ensures io' == RxState(TxState(io, tx, TxSent(status, |tx|)), RxStarted(status, rxLen))
    ensures |rx| == match status
      case Completed => rxLen
      case TxTimedOut(_) => 0
      case RxTimedOut(k) => k
    ensures forall i :: 0 <= i < |rx| ==> rx[i] == LowByte(data(i))
  {
    var txFailed;
    io', txFailed := Transmit(io, tx, waitLoops, 0, stat);
    if txFailed.Some? {
      return io', TxTimedOut(txFailed.value), [];
    }
    var rxFailed;
    io', rxFailed, rx := Receive(io', rxLen, waitLoops, |tx|, stat, data);
    status := if rxFailed.Some? then RxTimedOut(rxFailed.value) else Completed;
  }

  /** rt2880_spi_transfer_one: the speed-change branch (SpeedUpdate), then MoveBytes on
      the transfer's transmit buffer and receive length. Waits are numbered in order:
      transmit byte i is wait i, receive byte i is wait TxLen + i; `data(i)` is the i-th
      DATA read. A zero-length transfer only changes the speed. */
  method TransferOne(m: Master, xfer: Transfer, stat: nat -> nat -> u32, data: nat -> u32)
    returns (m': Master, status: TransferStatus, rx: seq<u8>, err: int)
    requires m.waitLoops >= 1
    requires xfer.tx.Some? ==> |xfer.tx.value| >= xfer.len
    requires m.speed == xfer.speedHz || SpeedAccepted(m.clk, xfer.speedHz)
    // which wait, if any, ends the transfer
    ensures status.Completed? <==> forall w :: 0 <= w < TxLen(xfer) + RxLen(xfer) ==> Ready(stat, w, m.waitLoops)
    ensures status.TxTimedOut? ==>
      && status.at < TxLen(xfer) && !Ready(stat, status.at, m.waitLoops)
      && forall w :: 0 <= w < status.at ==> Ready(stat, w, m.waitLoops)
    ensures status.RxTimedOut? ==>
      && status.at < RxLen(xfer) && !Ready(stat, TxLen(xfer) + status.at, m.waitLoops)
      && forall w :: 0 <= w < TxLen(xfer) + status.at ==> Ready(stat, w, m.waitLoops)
    // the register window: the speed change, the bytes sent, the reads started
    ensures var m1 := SpeedUpdate(m, xfer.speedHz);
      && TxSent(status, TxLen(xfer)) <= TxLen(xfer)
      && (RxStarted(status, RxLen(xfer)) > 0 ==> TxSent(status, TxLen(xfer)) == TxLen(xfer))
      && m' == m1.(io := RxState(TxState(m1.io, TxBytes(xfer), TxSent(status, TxLen(xfer))),
                                 RxStarted(status, RxLen(xfer))))
    // what was received
    ensures |rx| == match status
      case Completed => RxLen(xfer)
      case TxTimedOut(_) => 0
      case RxTimedOut(k) => k
    ensures forall i :: 0 <= i < |rx| ==> rx[i] == LowByte(data(i))
    ensures xfer.len == 0 ==> status.Completed? && m' == SpeedUpdate(m, xfer.speedHz) && rx == []
    // the return value: 0 for a completed transfer, -ETIMEDOUT for one cut short
    ensures err == 0 || err == -ETIMEDOUT
    ensures err == 0 <==> status.Completed?
  {
    var m1 := SpeedUpdate(m, xfer.speedHz);
    var io';
    io', status, rx := MoveBytes(m1.io, TxBytes(xfer), RxLen(xfer), m.waitLoops, stat, data);
    m' := m1.(io := io');
    err := if status.Completed? then 0 else -ETIMEDOUT;
  }
  /** The register writes of a transfer: after the speed change, each sent byte is written
      to DATA followed by CTL with STARTWR set, then CTL with STARTRD set once per read
      started; CFG keeps the value the speed change gave it. Only the sent bytes reach
      DATA, in order. */
  lemma TransferWrites(m: Master, xfer: Transfer, status: TransferStatus)
    requires xfer.tx.Some? ==> |xfer.tx.value| >= xfer.len
    requires m.speed == xfer.speedHz || SpeedAccepted(m.clk, xfer.speedHz)
    requires TxSent(status, TxLen(xfer)) <= TxLen(xfer)
    requires RxStarted(status, RxLen(xfer)) > 0 ==> TxSent(status, TxLen(xfer)) == TxLen(xfer)
    ensures var m1 := SpeedUpdate(m, xfer.speedHz);
      var sent := TxSent(status, TxLen(xfer));
      var io' := RxState(TxState(m1.io, TxBytes(xfer), sent), RxStarted(status, RxLen(xfer)));
      var ctl := m1.io.ctl;
      var ctlAfterTx := if sent > 0 then SetMask(ctl, CTL_STARTWR) else ctl;
      && io'.cfg == m1.io.cfg && io'.arb == m.io.arb
      && io'.trace == m1.io.trace + TxTrace(TxBytes(xfer)[..sent], SetMask(ctl, CTL_STARTWR))
                                  + RxTrace(RxStarted(status, RxLen(xfer)), SetMask(ctlAfterTx, CTL_STARTRD))
      && DataWrites(io'.trace) == DataWrites(m.io.trace) + Widen(TxBytes(xfer)[..sent])
  {
    var m1 := SpeedUpdate(m, xfer.speedHz);
    var tx := TxBytes(xfer);
    var sent := TxSent(status, TxLen(xfer));
    var ioTx := TxState(m1.io, tx, sent);
    var started := RxStarted(status, RxLen(xfer));
    TxStateRegs(m1.io, tx, sent);
    TxStateWrites(m1.io, tx, sent);
    RxStateRegs(ioTx, started);
    RxStateWrites(ioTx, started);
    RxTraceWritesNoData(started, SetMask(ioTx.ctl, CTL_STARTRD));
    TransferDataWrites(m, m1, tx[..sent], SetMask(m1.io.ctl, CTL_STARTWR), RxTrace(started, SetMask(ioTx.ctl, CTL_STARTRD)));
  }

  /** The DATA writes of a transfer are the speed-change writes (none to DATA) followed
      by the transmitted bytes. */
  lemma TransferDataWrites(m: Master, m1: Master, sent: seq<u8>, ctl: u32, rxPart: seq<RegWrite>)
    requires m1.io.trace == m.io.trace || m1.io.trace == m.io.trace + [RegWrite(CFG, m1.io.cfg)]
    requires DataWrites(rxPart) == []
    ensures DataWrites(m1.io.trace + TxTrace(sent, ctl) + rxPart) == DataWrites(m.io.trace) + Widen(sent)
  {
    TxTraceWritesBytesInOrder(sent, ctl);
    DataWritesAppend(m1.io.trace + TxTrace(sent, ctl), rxPart);
    DataWritesAppend(m1.io.trace, TxTrace(sent, ctl));
    if m1.io.trace != m.io.trace {
      DataWritesAppend(m.io.trace, [RegWrite(CFG, m1.io.cfg)]);
      assert DataWrites([RegWrite(CFG, m1.io.cfg)][..0]) == [];
    }
  }
}
